=== FILE: README.md ===
# TextGenerator in Dafny

A model of the three word generators of TextGenerator and of the `generate`
driver they share. Each generator is trained on a corpus of words, then asked
for `howMany` words starting from a seed word:

- **deterministic**: for every word, keeps the one successor that followed it
  most often, breaking ties by the lexicographically smaller word. It then
  walks that map from the lower-cased seed, jumping back to the seed whenever
  a word has no successor. After generating, it clears its dictionary.
- **probabilistic**: counts only the words that directly follow the seed. It
  returns the `howMany` most frequent of them, ranked by count and then by
  word.
- **random**: keeps, for every word, the list of every word that followed it,
  with repetitions. Each next word is drawn uniformly from the current word's
  list. When the current word has no list, the next word is the seed exactly
  as passed.

`generate` stores the seed and the count in the generator's fields, trains the
generator, fetches the words and joins them with single spaces.

Modules:

- `Outcomes`: `Option`, `Result`, and the Java exceptions the code can raise.
- `Strings`: ASCII lower-casing, and `String.compareTo` defined through the
  common prefix.
- `Corpus`: adjacent-pair counts, successor lists and predecessors of a token
  sequence.
- `Deterministic`, `Probabilistic`, `Random`: the three generators.
  - Each is a class with the same fields as the Java class: `seed`, `howMany`
    and the dictionary.
  - `Train` and `GetWords` are methods.
  - Each `Train` loop is proved against a function that folds over the
    token prefix (`Trained`, `Counted`, `Listed`).
  - The `GetWords` loops are proved against the walk `Walk` (deterministic),
    the top-k predicate `IsTopK` (probabilistic) and the walk predicate
    `IsRandomWalk` (random).
  - The generator's properties are lemmas about those definitions.
- `TextGenerator`: the rendering loop, proved against `Appended` and
  `Joined`; `generate`; and the outcomes it can produce with each generator.
- `Scenarios`: both deterministic and probabilistic generation, worked out on
  the corpus "the cat sat on the mat the cat ran".

Java exceptions become `Err` values, and a null reference becomes `None`.
Every precondition the Java code does not check is modelled as an error path.

Behaviour of the code that the model keeps as it is:

- `getWords` with `howMany == 0` throws `ArrayIndexOutOfBoundsException` in
  the deterministic and random generators, at `output[0]`
  (DeterministicGenerator.java:90, RandomGenerator.java:65).
- The probabilistic generator returns no word when `howMany` is 0 or when
  its table is empty. The table is never cleared, so it is empty only while
  no word has yet followed the seed in any corpus trained on. `generate` then
  fails with `StringIndexOutOfBoundsException` in `deleteCharAt(-1)`
  (TextGenerator.java:65).
- With `howMany == 1`, the probabilistic generator returns the top successor
  of the seed, not the seed itself: the seed is never written to its output.
- Deterministic ties go to the word that `String.compareTo` ranks first, as
  the class comment says (DeterministicGenerator.java:8-10). On "the cat sat
  on the mat the cat ran", "sat" and "ran" each follow "cat" once, so three
  words from "the" give "the cat ran" (`Scenarios.DeterministicScenario`).
- The javadoc of the random generator's `getWords` names
  `IllegalArgumentException` for a null seed (RandomGenerator.java:56). The
  code throws `NullPointerException` instead, and only after allocating the
  array. The probabilistic `getWords` also names `IllegalArgumentException`
  (ProbabilisticGenerator.java:104), but it never reads its seed argument
  and throws nothing for a null seed.
- The probabilistic generator dereferences the seed field only once a second
  token is read, so a one-word corpus trains without error even when the
  seed is null.
- A corpus with no token at all fails on the first `Scanner.next()` with
  `NoSuchElementException`.

## Model

| member | source | states |
|---|---|---|
| Strings.Lower | DeterministicGenerator.java:89 | lower-casing keeps the length, yields a lower-case string, and changes nothing exactly when the string is already lower-case |
| Strings.CompareStrings | ProbabilisticGenerator.java:56 | String.compareTo is zero exactly for equal strings, negative exactly when the first is lexicographically smaller, and positive exactly when the second is |
| Strings.LexLessTotal | ProbabilisticGenerator.java:44 | of two different strings, one is lexicographically smaller |
| Strings.LexLessTransitive | ProbabilisticGenerator.java:44 | the lexicographic order is transitive |
| Strings.LexLessAsymmetric | ProbabilisticGenerator.java:44 | no two strings are each smaller than the other |
| Deterministic.Observe | DeterministicGenerator.java:41-67 | one iteration of the training loop for the pair key, value: a new key gets count 1, maximum 1 and value as its successor; otherwise value's count goes up, a count above the maximum makes value the successor, and a count equal to it does so when the stored successor compares greater; the table stays well formed |
| Deterministic.Trained | DeterministicGenerator.java:28-72 | the table after the loop has observed every adjacent pair of the tokens in order, starting from empty count maps and the dictionary left by earlier calls; it is well formed |
| Deterministic.ObserveSummarises | DeterministicGenerator.java:39-70 | one loop iteration turns a table that records the corpus read so far into one that records the corpus with one more token |
| Deterministic.TrainedSummarises | DeterministicGenerator.java:28-72 | after a pass, the count maps, the running maxima and the dictionary record every predecessor of the corpus, and only those |
| Deterministic.TrainedKeys | DeterministicGenerator.java:41-47 | a word gets a count map exactly when some token follows it; the dictionary gains exactly those words and keeps every other entry |
| Deterministic.TrainedCounts | DeterministicGenerator.java:49-57 | a predecessor's inner map holds each successor's number of adjacent occurrences, and holds no word that never followed it |
| Deterministic.TrainedMaxCount | DeterministicGenerator.java:58-62 | the running maximum is the largest successor count of the predecessor, and some successor reaches it |
| Deterministic.TrainedBestIsBest | DeterministicGenerator.java:58-66 | each predecessor's stored successor followed it, no successor followed it more often, and among equally frequent ones it is the smallest |
| Deterministic.BestIsUnique | DeterministicGenerator.java:8-10 | the frequency rule with the lexicographic tie-break designates at most one successor |
| Deterministic.TrainedTwice | DeterministicGenerator.java:28-72 | training a second time on the same corpus leaves the dictionary unchanged |
| Deterministic.Walk | DeterministicGenerator.java:88-99 | the walk has the requested length, starts at the given word, and each next word is the stored successor or the start word again |
| Deterministic.Generated | DeterministicGenerator.java:83-99 | getWords succeeds exactly for a non-null seed and a positive count, with that many words starting at the lower-cased seed; a null seed throws IllegalArgumentException |
| Deterministic.WalkFromDeadEnd | DeterministicGenerator.java:92-93 | a seed without a stored successor yields the seed repeated |
| Deterministic.WalkFollowsTraining | DeterministicGenerator.java:88-99 | on a trained dictionary, each word after the first is the best successor of the word before, or the seed when no token follows that word in the corpus |
| Deterministic.DeterministicGenerator.Train | DeterministicGenerator.java:28-72 | an empty corpus throws NoSuchElementException and changes nothing; otherwise the dictionary becomes the trained one: the best successor for every predecessor and the old entry for every other word |
| Deterministic.DeterministicGenerator.GetWords | DeterministicGenerator.java:83-102 | returns the walk from the lower-cased seed, or the exception getWords raises, and clears the dictionary after a successful walk |
| Probabilistic.CompareTo | ProbabilisticGenerator.java:49-57 | negative exactly when this tuple ranks first (higher count, or same count and smaller word), positive exactly when rhs does, and zero only for equal tuples |
| Probabilistic.RanksBeforeAsymmetric | ProbabilisticGenerator.java:40-57 | no two tuples each rank before the other |
| Probabilistic.RanksBeforeTransitive | ProbabilisticGenerator.java:40-57 | the tuple ranking is transitive |
| Probabilistic.RanksBeforeTotal | ProbabilisticGenerator.java:40-57 | of two different tuples, one ranks before the other |
| Probabilistic.SortTuples | ProbabilisticGenerator.java:122 | the sort leaves the tuples ordered by compareTo and is a permutation of its input |
| Probabilistic.Counted | ProbabilisticGenerator.java:84-95 | the table after the loop: for every adjacent pair whose first token equals the seed, the second token's count is created at 1 or raised by 1 |
| Probabilistic.IsTopK | ProbabilisticGenerator.java:112-125 | what getWords returns: min(howMany, size) table words in strictly decreasing rank, each ranking before every table word it leaves out |
| Probabilistic.CountedAddsPairs | ProbabilisticGenerator.java:84-95 | training adds to each word's count the number of times it directly follows the seed, and creates no other entry |
| Probabilistic.CountedFromEmpty | ProbabilisticGenerator.java:86-92 | from an empty table, a word has an entry exactly when it follows the seed, and its count is the number of times it does |
| Probabilistic.CountedTwice | ProbabilisticGenerator.java:73-97 | two training passes on one instance add up their counts |
| Probabilistic.CountedEmpty | ProbabilisticGenerator.java:86-92 | from an empty table, the table stays empty exactly when no token follows the seed |
| Probabilistic.CountedAbsentSeed | ProbabilisticGenerator.java:86 | a seed that is no token leaves the table unchanged |
| Probabilistic.UpperCaseSeedCountsNothing | ProbabilisticGenerator.java:85-86 | the seed is compared with lower-cased tokens, so a seed with an upper-case letter counts nothing |
| Probabilistic.TopKDistinct | ProbabilisticGenerator.java:118-125 | the returned words repeat no word |
| Probabilistic.TopKUnique | ProbabilisticGenerator.java:118-125 | the top-howMany list is unique, whatever order the map hands out its entries |
| Probabilistic.TopKNextRanksFirst | ProbabilisticGenerator.java:122-125 | each returned word ranks at least as high as every table word not returned before it |
| Probabilistic.SortedIsTopK | ProbabilisticGenerator.java:122-125 | the words of the first min(howMany, size) sorted entries are the howMany highest-ranked words, in rank order |
| Probabilistic.TopKDoubled | ProbabilisticGenerator.java:49-57 | doubling every count keeps the ranking, and so the top-howMany list |
| Probabilistic.TrainedTwiceSameTopK | ProbabilisticGenerator.java:73-127 | training twice on the same corpus doubles every count, and a list is the top-howMany list of the twice-trained table exactly when it is that of the once-trained table |
| Probabilistic.ProbabilisticGenerator.Train | ProbabilisticGenerator.java:73-97 | an empty corpus throws NoSuchElementException, and a null seed throws NullPointerException once a second token is read; otherwise the table gains the successor counts of the seed |
| Probabilistic.ProbabilisticGenerator.FillEntries | ProbabilisticGenerator.java:118-121 | the array holds one tuple per table entry, each with the entry's word and count, with no repeats |
| Probabilistic.ProbabilisticGenerator.GetWords | ProbabilisticGenerator.java:108-127 | a negative count throws NegativeArraySizeException; otherwise the result is the top-howMany list of the table |
| Random.Listed | RandomGenerator.java:37-46 | the dictionary after the loop: for every adjacent pair, the second token is put at index size of the first token's list, which is created empty when missing |
| Random.Drawn | RandomGenerator.java:67-72 | the word written after cur: the entry at some index 0..size-1 of cur's list, or the seed as passed when cur has no list |
| Random.IsRandomWalk | RandomGenerator.java:63-76 | the outputs getWords can return: howMany words, the first the lower-cased seed, each later one drawn after the word before it |
| Random.AppendExtends | RandomGenerator.java:44 | putting at index size keeps the keys 0..size-1 and appends the value to the list |
| Random.ListedValid | RandomGenerator.java:37-46 | after training, every list is indexed 0..size-1 and is non-empty |
| Random.ListedAppends | RandomGenerator.java:37-46 | training appends to each word's list exactly the tokens that follow it, in corpus order |
| Random.ListedKeys | RandomGenerator.java:39-43 | after training, a word has a list exactly when it had one or is a predecessor, and a word that no token follows keeps its list unchanged |
| Random.TrainedFromEmpty | RandomGenerator.java:10-12 | from an empty dictionary, a word's list is its successors in corpus order, and a word that follows it k times fills exactly k slots |
| Random.RandomWalkFollowsCorpus | RandomGenerator.java:66-76 | on a trained dictionary, each generated word followed the word before it in the corpus, or is the seed when no token follows that word in the corpus |
| Random.RawSeedFallbackRepeats | RandomGenerator.java:67-68 | the fallback writes the seed without lower-casing it, so a seed with an upper-case letter, once written, repeats to the end |
| Random.RandomGenerator.Train | RandomGenerator.java:27-48 | an empty corpus throws NoSuchElementException; otherwise each word's list is extended by its successors in corpus order, and the lists stay indexed 0..size-1 |
| Random.RandomGenerator.GetWords | RandomGenerator.java:60-78 | a negative count throws NegativeArraySizeException, a null seed NullPointerException, and a zero count ArrayIndexOutOfBoundsException; otherwise the output starts at the lower-cased seed, and each next word is in the current word's list or is the raw seed |
| TextGenerator.Joined | TextGenerator.java:60-65 | the printed line: the words separated by single spaces, with nothing before the first or after the last |
| TextGenerator.Appended | TextGenerator.java:60-64 | the builder after the append loop: every word followed by one space |
| TextGenerator.AppendedJoined | TextGenerator.java:60-65 | appending every word with a trailing space, then dropping the last character, joins the words with single spaces |
| TextGenerator.SplitJoined | TextGenerator.java:60-65 | splitting the rendered line at its spaces gives back the words, when no word contains a space |
| TextGenerator.JoinedLength | TextGenerator.java:60-65 | the rendered line is as long as the words plus one space between each pair |
| TextGenerator.Render | TextGenerator.java:60-65 | the builder loop renders the words joined by single spaces, and an empty array throws StringIndexOutOfBoundsException |
| TextGenerator.Generate | TextGenerator.java:56-65 | sets the seed and count fields, trains, gets the words and renders them; the result is the deterministic outcome, one of the probabilistic outcomes, or one of the random outcomes, exceptions included; afterwards the deterministic dictionary is cleared on success and otherwise holds what training left, the probabilistic table holds the added counts, and the random dictionary holds the appended lists and stays valid |
| TextGenerator.DeterministicUnknownSeed | TextGenerator.java:56-65 | with the deterministic generator, a seed that no token follows is printed howMany times |
| TextGenerator.DeterministicSentenceSplits | TextGenerator.java:56-65 | with space-free tokens and a space-free seed, the deterministic line is the walk of howMany words joined by spaces, and it splits back into exactly those words |
| TextGenerator.ProbabilisticOutcomeUnique | TextGenerator.java:56-65 | generate with the probabilistic generator has exactly one possible result |
| TextGenerator.ProbabilisticEmptyFails | ProbabilisticGenerator.java:112-117 | generate with the probabilistic generator throws StringIndexOutOfBoundsException exactly when howMany is 0 or the trained table is empty, which from an empty table means no token follows the seed |
| TextGenerator.RandomSentenceLength | TextGenerator.java:56-65 | with space-free tokens and a space-free seed, a successful random line splits into exactly howMany words |
| Scenarios.DeterministicScenario | DeterministicGenerator.java:58-66 | on "the cat sat on the mat the cat ran", three deterministic words from "the" print "the cat ran" |
| Scenarios.ProbabilisticScenario | ProbabilisticGenerator.java:108-127 | on the same corpus, five probabilistic words from "the" print "cat mat", and nothing else |

## Left out

- Reading the corpus is not modelled: opening the file, Scanner's delimiter
  pattern and lower-casing the tokens. Training receives the tokens already
  lower-cased, with no spaces inside them. `RuntimeException` for a missing
  file is not modelled.
- `main` is not modelled: argument parsing and the choice of generator by
  name. `generate` receives the generator as a value of the `Generator`
  datatype.
- `System.out.println` of the line is not modelled. `generate` returns the
  line it would print.
- `Random.RandomGenerator.GetWords`: the draw is a nondeterministic choice of
  an index in 0..size-1. The contract says which words can be drawn, not how
  likely each one is. The weighting is stated through list multiplicities
  (`Random.TrainedFromEmpty`), not through probabilities.
- `Probabilistic.SortTuples`: `Arrays.sort` is modelled as an insertion sort.
  The tuple order is total on distinct tuples, so any correct sort gives the
  same array.
- The entry order of `HashMap` iteration is not modelled. `FillEntries` picks
  entries in an arbitrary order, and `Probabilistic.TopKUnique` shows that
  the result does not depend on it.
- Counts are unbounded integers: 32-bit overflow of `int` counts after more
  than 2^31 - 1 occurrences is not modelled.
- `Strings.Lower`: lower-cases ASCII letters only; Unicode case mapping is not
  modelled. Java strings are modelled as sequences of Dafny `char`s, which
  are Unicode scalar values rather than UTF-16 code units; `CompareStrings`
  therefore orders characters outside the Basic Multilingual Plane
  differently from `String.compareTo`. The tokens the Scanner produces are
  ASCII, so this does not affect training.
- The deterministic generator's `"_MAX"` entry of each inner map is kept in a
  separate map. Tokens are lower-cased, so no token can be `"_MAX"`.
- `seed` and `howMany` belong to the abstract base class in Java. The model
  repeats them in each generator class.

=== FILE: corpus.dfy ===
/** Facts about a token sequence that all three training passes summarise:
    which word follows which, and how often. Every definition peels the
    last token off, in the order the training loops read the corpus. */
module Corpus {

  /** w occurs at a position that some other token follows. */
  predicate IsPredecessor(s: seq<string>, w: string)
  {
    |s| >= 1 && w in s[..|s| - 1]
  }

  /** The number of adjacent positions i, i+1 holding a then b. */
  function PairCount(s: seq<string>, a: string, b: string): nat
  {
    if |s| < 2 then 0
    else PairCount(s[..|s| - 1], a, b) + (if s[|s| - 2] == a && s[|s| - 1] == b then 1 else 0)
  }

  /** The tokens that follow the occurrences of a, in corpus order. */
  function Successors(s: seq<string>, a: string): seq<string>
  {
    if |s| < 2 then []
    else Successors(s[..|s| - 1], a) + (if s[|s| - 2] == a then [s[|s| - 1]] else [])
  }

  lemma IsPredecessorSnoc(s: seq<string>, x: string, w: string)
    requires |s| >= 1
    ensures IsPredecessor(s + [x], w) <==> IsPredecessor(s, w) || w == s[|s| - 1]
  {
    assert (s + [x])[..|s|] == s;
    assert s == s[..|s| - 1] + [s[|s| - 1]];
  }

  lemma PairCountSnoc(s: seq<string>, x: string, a: string, b: string)
    requires |s| >= 1
    ensures PairCount(s + [x], a, b) == PairCount(s, a, b) + (if s[|s| - 1] == a && x == b then 1 else 0)
  {
    assert (s + [x])[..|s|] == s;
  }

  /** A pair is only counted when its first word is a predecessor. */
  lemma {:induction false} PairCountPredecessor(s: seq<string>, a: string, b: string)
    ensures PairCount(s, a, b) > 0 ==> IsPredecessor(s, a)
  {
    if |s| >= 2 {
      var s' := s[..|s| - 1];
      PairCountPredecessor(s', a, b);
      assert s == s' + [s[|s| - 1]];
      IsPredecessorSnoc(s', s[|s| - 1], a);
    }
  }

  /** Every adjacent pair of the corpus is counted. */
  lemma {:induction false} PairCountAtLeastOne(s: seq<string>, i: nat)
    requires i + 1 < |s|
    ensures PairCount(s, s[i], s[i + 1]) > 0
  {
    if i + 2 < |s| {
      var s' := s[..|s| - 1];
      PairCountAtLeastOne(s', i);
    }
  }

  /** Only tokens of the corpus are counted as successors. */
  lemma {:induction false} PairCountSuccessor(s: seq<string>, a: string, b: string)
    ensures PairCount(s, a, b) > 0 ==> b in s
  {
    if |s| >= 2 {
      var s' := s[..|s| - 1];
      PairCountSuccessor(s', a, b);
      assert s == s' + [s[|s| - 1]];
    }
  }

  /** A word is a predecessor exactly when some pair starting with it is
      counted. */
  lemma PredecessorHasPair(s: seq<string>, a: string)
    ensures IsPredecessor(s, a) <==> exists b :: PairCount(s, a, b) > 0
  {
    if IsPredecessor(s, a) {
      var i :| 0 <= i < |s| - 1 && s[i] == a;
      PairCountAtLeastOne(s, i);
    }
    if exists b :: PairCount(s, a, b) > 0 {
      var b :| PairCount(s, a, b) > 0;
      PairCountPredecessor(s, a, b);
    }
  }

  /** The successor list of a word records each pair once: a word that
      follows a exactly k times occupies exactly k entries. */
  lemma {:induction false} SuccessorsCountPairs(s: seq<string>, a: string, b: string)
    ensures multiset(Successors(s, a))[b] == PairCount(s, a, b)
  {
    if |s| >= 2 {
      SuccessorsCountPairs(s[..|s| - 1], a, b);
    }
  }
}

=== FILE: deterministic.dfy ===
/** DeterministicGenerator: training keeps, for every predecessor, the one
    successor with the highest count (ties to the lexicographically smaller
    word); generation walks that map from the seed, jumping back to the seed
    whenever a word has no recorded successor. */
module Deterministic {
  import opened Outcomes
  import opened Strings
  import opened Corpus

  /** The state of one training pass: the nested count map, the running
      maximum per predecessor (the "_MAX" entry of the inner maps, kept
      apart so that it cannot collide with a word) and the best-successor
      dictionary. */
  datatype Table = Table(counts: map<string, map<string, nat>>, maxCount: map<string, nat>, best: map<string, string>)

  predicate WellFormed(t: Table)
  {
    t.counts.Keys == t.maxCount.Keys && t.counts.Keys <= t.best.Keys
  }

  /** One iteration of the training loop: key is followed by value. */
  function Observe(t: Table, key: string, value: string): (t': Table)
    requires WellFormed(t)
    ensures WellFormed(t')
  {
    if key !in t.counts then
      Table(t.counts[key := map[value := 1]], t.maxCount[key := 1], t.best[key := value])
    else
      var probabilities := t.counts[key];
      var frequency := if value in probabilities then probabilities[value] + 1 else 1;
      var counts := t.counts[key := probabilities[value := frequency]];
      if t.maxCount[key] < frequency then
        Table(counts, t.maxCount[key := frequency], t.best[key := value])
      else if frequency == t.maxCount[key] && CompareStrings(t.best[key], value) > 0 then
        Table(counts, t.maxCount, t.best[key := value])
      else
        Table(counts, t.maxCount, t.best)
  }

  /** The table after training over tokens, starting from the dictionary d
      left by earlier calls (the count maps are local to one pass). */
  function Trained(d: map<string, string>, tokens: seq<string>): (t: Table)
    requires |tokens| >= 1
    ensures WellFormed(t)
  {
    if |tokens| == 1 then Table(map[], map[], d)
    else Observe(Trained(d, tokens[..|tokens| - 1]), tokens[|tokens| - 2], tokens[|tokens| - 1])
  }

  /** w is the successor training must keep for k: it followed k, no
      successor of k followed it more often, and among those that followed
      k equally often it is the lexicographically smallest. */
  ghost predicate IsBest(tokens: seq<string>, k: string, w: string)
  {
    && PairCount(tokens, k, w) > 0
    && (forall v :: PairCount(tokens, k, v) <= PairCount(tokens, k, w))
    && (forall v :: PairCount(tokens, k, v) == PairCount(tokens, k, w) ==> !LexLess(v, w))
  }

  /** What the entry of predecessor k in a table records about tokens:
      its count map, its running maximum and its stored successor. */
  ghost predicate RecordsSuccessors(tokens: seq<string>, t: Table, k: string)
    requires WellFormed(t) && k in t.counts
  {
    && (forall v :: v in t.counts[k] <==> PairCount(tokens, k, v) > 0)
    && (forall v :: v in t.counts[k] ==> t.counts[k][v] == PairCount(tokens, k, v))
    && (forall v :: PairCount(tokens, k, v) <= t.maxCount[k])
    && PairCount(tokens, k, t.best[k]) == t.maxCount[k]
    && (forall v :: PairCount(tokens, k, v) == t.maxCount[k] ==> !LexLess(v, t.best[k]))
  }

  /** What a table built from d over tokens records. */
  ghost predicate Summarises(tokens: seq<string>, d: map<string, string>, t: Table)
  {
    && WellFormed(t)
    && (forall k :: k in t.counts <==> IsPredecessor(tokens, k))
    && (forall k :: k in t.best <==> k in t.counts || k in d)
    && (forall k :: k in d && k !in t.counts ==> t.best[k] == d[k])
    && (forall k :: k in t.counts ==> RecordsSuccessors(tokens, t, k))
  }

  /** The entry of the key just observed is right for the longer corpus s'. */
  lemma ObserveRecordsKey(s: seq<string>, s': seq<string>, key: string, x: string, t: Table)
    requires |s| >= 1 && key == s[|s| - 1] && s' == s + [x] && WellFormed(t)
    requires key in t.counts ==> RecordsSuccessors(s, t, key)
    requires key !in t.counts ==> forall v :: PairCount(s, key, v) == 0
    ensures RecordsSuccessors(s', Observe(t, key, x), key)
  {
    forall v
      ensures PairCount(s', key, v) == PairCount(s, key, v) + (if v == x then 1 else 0)
    {
      PairCountSnoc(s, x, key, v);
    }
    if key !in t.counts {
      ObserveNewKey(s', key, x, t);
    } else {
      var probabilities := t.counts[key];
      var frequency := if x in probabilities then probabilities[x] + 1 else 1;
      assert frequency == PairCount(s', key, x);
      if t.maxCount[key] < frequency {
        ObserveNewMax(s, s', key, x, t);
      } else if frequency == t.maxCount[key] && CompareStrings(t.best[key], x) > 0 {
        ObserveTieReplace(s, s', key, x, t);
      } else {
        ObserveKeep(s, s', key, x, t);
      }
    }
  }

  lemma ObserveNewKey(s': seq<string>, key: string, x: string, t: Table)
    requires WellFormed(t) && key !in t.counts
    requires forall v :: PairCount(s', key, v) == if v == x then 1 else 0
    ensures RecordsSuccessors(s', Observe(t, key, x), key)
  {
  }

  lemma ObserveNewMax(s: seq<string>, s': seq<string>, key: string, x: string, t: Table)
    requires WellFormed(t) && key in t.counts && RecordsSuccessors(s, t, key)
    requires forall v :: PairCount(s', key, v) == PairCount(s, key, v) + (if v == x then 1 else 0)
    requires t.maxCount[key] < PairCount(s', key, x)
    ensures RecordsSuccessors(s', Observe(t, key, x), key)
  {
    var t' := Observe(t, key, x);
    assert t'.best[key] == x && t'.maxCount[key] == PairCount(s', key, x);
    forall v ensures PairCount(s', key, v) <= t'.maxCount[key] {
    }
    forall v | PairCount(s', key, v) == t'.maxCount[key]
      ensures !LexLess(v, x)
    {
      assert v == x;
      LexLessIrreflexive(x);
    }
  }

  lemma ObserveTieReplace(s: seq<string>, s': seq<string>, key: string, x: string, t: Table)
    requires WellFormed(t) && key in t.counts && RecordsSuccessors(s, t, key)
    requires forall v :: PairCount(s', key, v) == PairCount(s, key, v) + (if v == x then 1 else 0)
    requires t.maxCount[key] == PairCount(s', key, x) && CompareStrings(t.best[key], x) > 0
    ensures RecordsSuccessors(s', Observe(t, key, x), key)
  {
    var p := t.counts[key];
    var f := PairCount(s', key, x);
    assert f == if x in p then p[x] + 1 else 1;
    var t' := Table(t.counts[key := p[x := f]], t.maxCount, t.best[key := x]);
    assert Observe(t, key, x) == t';
    TieRecords(s, s', key, x, t, t');
  }

  /** The entry after a pair that ties the maximum with a smaller word. */
  lemma TieRecords(s: seq<string>, s': seq<string>, key: string, x: string, t: Table, t': Table)
    requires WellFormed(t) && key in t.counts && RecordsSuccessors(s, t, key)
    requires forall v :: PairCount(s', key, v) == PairCount(s, key, v) + (if v == x then 1 else 0)
    requires t.maxCount[key] == PairCount(s', key, x) && LexLess(x, t.best[key])
    requires WellFormed(t') && key in t'.counts
    requires t'.counts[key] == t.counts[key][x := PairCount(s', key, x)]
    requires t'.maxCount[key] == t.maxCount[key] && t'.best[key] == x
    ensures RecordsSuccessors(s', t', key)
  {
    forall v | PairCount(s', key, v) == t'.maxCount[key]
      ensures !LexLess(v, x)
    {
      if v != x {
        LexLessTransitiveNot(v, t.best[key], x);
      }
    }
  }

  lemma ObserveKeep(s: seq<string>, s': seq<string>, key: string, x: string, t: Table)
    requires WellFormed(t) && key in t.counts && RecordsSuccessors(s, t, key)
    requires forall v :: PairCount(s', key, v) == PairCount(s, key, v) + (if v == x then 1 else 0)
    requires PairCount(s', key, x) <= t.maxCount[key]
    requires !(PairCount(s', key, x) == t.maxCount[key] && CompareStrings(t.best[key], x) > 0)
    ensures RecordsSuccessors(s', Observe(t, key, x), key)
  {
    var p := t.counts[key];
    var f := PairCount(s', key, x);
    assert f == if x in p then p[x] + 1 else 1;
    var t' := Table(t.counts[key := p[x := f]], t.maxCount, t.best);
    assert Observe(t, key, x) == t';
    KeepRecords(s, s', key, x, t, t');
  }

  /** The entry after a pair that leaves the stored successor in place. */
  lemma KeepRecords(s: seq<string>, s': seq<string>, key: string, x: string, t: Table, t': Table)
    requires WellFormed(t) && key in t.counts && RecordsSuccessors(s, t, key)
    requires forall v :: PairCount(s', key, v) == PairCount(s, key, v) + (if v == x then 1 else 0)
    requires PairCount(s', key, x) <= t.maxCount[key]
    requires PairCount(s', key, x) == t.maxCount[key] ==> !LexLess(x, t.best[key])
    requires WellFormed(t') && key in t'.counts
    requires t'.counts[key] == t.counts[key][x := PairCount(s', key, x)]
    requires t'.maxCount[key] == t.maxCount[key] && t'.best[key] == t.best[key]
    ensures RecordsSuccessors(s', t', key)
  {
    if PairCount(s', key, x) == t.maxCount[key] {
      assert t.best[key] != x;
    }
  }

  lemma LexLessTransitiveNot(v: string, b: string, x: string)
    requires !LexLess(v, b) && LexLess(x, b) && v != x
    ensures !LexLess(v, x)
  {
    if LexLess(v, x) {
      LexLessTransitive(v, x, b);
    }
  }

  /** Observing a pair for key touches no other entry. */
  lemma ObserveFrame(t: Table, key: string, x: string)
    requires WellFormed(t)
    ensures Observe(t, key, x).counts.Keys == t.counts.Keys + {key}
    ensures Observe(t, key, x).best.Keys == t.best.Keys + {key}
    ensures forall k :: k != key && k in t.counts ==>
      && Observe(t, key, x).counts[k] == t.counts[k]
      && Observe(t, key, x).maxCount[k] == t.maxCount[k]
    ensures forall k :: k != key && k in t.best ==> Observe(t, key, x).best[k] == t.best[k]
  {
  }

  /** Observing a pair for key leaves every other entry right. */
  lemma ObserveRecordsOther(s: seq<string>, s': seq<string>, key: string, x: string, t: Table, k: string)
    requires |s| >= 1 && key == s[|s| - 1] && s' == s + [x] && WellFormed(t)
    requires k in t.counts && k != key && RecordsSuccessors(s, t, k)
    ensures RecordsSuccessors(s', Observe(t, key, x), k)
  {
    ObserveFrame(t, key, x);
    forall v ensures PairCount(s', k, v) == PairCount(s, k, v) {
      PairCountSnoc(s, x, k, v);
    }
  }

  lemma SummarisesIntro(tokens: seq<string>, d: map<string, string>, t: Table)
    requires WellFormed(t)
    requires forall k :: k in t.counts <==> IsPredecessor(tokens, k)
    requires forall k :: k in t.best <==> k in t.counts || k in d
    requires forall k :: k in d && k !in t.counts ==> t.best[k] == d[k]
    requires forall k :: k in t.counts ==> RecordsSuccessors(tokens, t, k)
    ensures Summarises(tokens, d, t)
  {
  }

  lemma ObserveSummarises(s: seq<string>, x: string, d: map<string, string>, t: Table)
    requires |s| >= 1 && Summarises(s, d, t)
    ensures Summarises(s + [x], d, Observe(t, s[|s| - 1], x))
  {
    var key := s[|s| - 1];
    var s' := s + [x];
    var t' := Observe(t, key, x);
    ObserveFrame(t, key, x);
    forall k
      ensures k in t'.counts <==> IsPredecessor(s', k)
    {
      IsPredecessorSnoc(s, x, k);
    }
    if key !in t.counts {
      forall v ensures PairCount(s, key, v) == 0 {
        PairCountPredecessor(s, key, v);
      }
    }
    ObserveRecordsKey(s, s', key, x, t);
    forall k | k in t'.counts
      ensures RecordsSuccessors(s', t', k)
    {
      if k != key {
        ObserveRecordsOther(s, s', key, x, t, k);
      }
    }
    SummarisesIntro(s', d, t');
  }

  lemma SummarisesStart(tokens: seq<string>, d: map<string, string>)
    requires |tokens| == 1
    ensures Summarises(tokens, d, Table(map[], map[], d))
  {
    assert tokens[..0] == [];
    SummarisesIntro(tokens, d, Table(map[], map[], d));
  }

  lemma {:induction false} TrainedSummarises(d: map<string, string>, tokens: seq<string>)
    requires |tokens| >= 1
    ensures Summarises(tokens, d, Trained(d, tokens))
  {
    if |tokens| == 1 {
      SummarisesStart(tokens, d);
    } else {
      var s := tokens[..|tokens| - 1];
      var x := tokens[|tokens| - 1];
      TrainedSummarises(d, s);
      assert tokens == s + [x];
      assert Trained(d, tokens) == Observe(Trained(d, s), s[|s| - 1], x);
      ObserveSummarises(s, x, d, Trained(d, s));
    }
  }

  /** Training gives an entry to exactly the tokens some token follows,
      and leaves every other entry of the dictionary as it was. */
  lemma TrainedKeys(d: map<string, string>, tokens: seq<string>, k: string)
    requires |tokens| >= 1
    ensures k in Trained(d, tokens).counts <==> IsPredecessor(tokens, k)
    ensures k in Trained(d, tokens).best <==> IsPredecessor(tokens, k) || k in d
    ensures !IsPredecessor(tokens, k) && k in d ==> Trained(d, tokens).best[k] == d[k]
  {
    TrainedSummarises(d, tokens);
  }

  /** The inner count maps hold the number of adjacent pairs. */
  lemma TrainedCounts(d: map<string, string>, tokens: seq<string>, k: string, v: string)
    requires |tokens| >= 1 && IsPredecessor(tokens, k)
    ensures k in Trained(d, tokens).counts
    ensures v in Trained(d, tokens).counts[k] <==> PairCount(tokens, k, v) > 0
    ensures v in Trained(d, tokens).counts[k] ==> Trained(d, tokens).counts[k][v] == PairCount(tokens, k, v)
  {
    TrainedSummarises(d, tokens);
  }

  /** The running maximum equals the largest successor count of k. */
  lemma TrainedMaxCount(d: map<string, string>, tokens: seq<string>, k: string)
    requires |tokens| >= 1 && IsPredecessor(tokens, k)
    ensures k in Trained(d, tokens).maxCount
    ensures forall v :: PairCount(tokens, k, v) <= Trained(d, tokens).maxCount[k]
    ensures exists v :: PairCount(tokens, k, v) == Trained(d, tokens).maxCount[k]
  {
    TrainedSummarises(d, tokens);
    var t := Trained(d, tokens);
    assert PairCount(tokens, k, t.best[k]) == t.maxCount[k];
  }

  /** The stored successor of every predecessor is the highest-count,
      lexicographically smallest one, and it did follow that predecessor. */
  lemma TrainedBestIsBest(d: map<string, string>, tokens: seq<string>, k: string)
    requires |tokens| >= 1 && IsPredecessor(tokens, k)
    ensures k in Trained(d, tokens).best
    ensures IsBest(tokens, k, Trained(d, tokens).best[k])
  {
    TrainedSummarises(d, tokens);
    var t := Trained(d, tokens);
    assert tokens[..|tokens| - 1] != [];
    var i :| 0 <= i < |tokens| - 1 && tokens[i] == k;
    assert PairCount(tokens, k, tokens[i + 1]) > 0 by {
      PairCountAtLeastOne(tokens, i);
    }
  }

  /** The tie-break fixes the successor: at most one word is best. */
  lemma BestIsUnique(tokens: seq<string>, k: string, w1: string, w2: string)
    requires IsBest(tokens, k, w1) && IsBest(tokens, k, w2)
    ensures w1 == w2
  {
    if w1 != w2 {
      LexLessTotal(w1, w2);
    }
  }

  /** Training a second time on the same corpus leaves the dictionary as
      the first pass made it: every predecessor's best successor is
      determined by the corpus alone. */
  lemma TrainedTwice(d: map<string, string>, tokens: seq<string>)
    requires |tokens| >= 1
    ensures Trained(Trained(d, tokens).best, tokens).best == Trained(d, tokens).best
  {
    var once := Trained(d, tokens).best;
    var twice := Trained(once, tokens).best;
    forall k
      ensures (k in twice <==> k in once) && (k in twice ==> twice[k] == once[k])
    {
      TrainedKeys(d, tokens, k);
      TrainedKeys(once, tokens, k);
      if IsPredecessor(tokens, k) {
        TrainedBestIsBest(d, tokens, k);
        TrainedBestIsBest(once, tokens, k);
        BestIsUnique(tokens, k, once[k], twice[k]);
      }
    }
  }

  /** Where the walk goes after word cur: its stored successor, or back to the seed. */
  function Next(dict: map<string, string>, cur: string, start: string): string
  {
    if cur in dict then dict[cur] else start
  }

  /** The n words getWords produces from the lower-cased seed start. */
  function Walk(dict: map<string, string>, start: string, n: nat): (w: seq<string>)
    ensures |w| == n
    ensures n > 0 ==> w[0] == start
    ensures forall i :: 0 < i < n ==> w[i] == Next(dict, w[i - 1], start)
  {
    if n == 0 then []
    else if n == 1 then [start]
    else
      var p := Walk(dict, start, n - 1);
      p + [Next(dict, p[n - 2], start)]
  }

  /** What getWords returns, exceptions included. */
  function Generated(dict: map<string, string>, seed: Option<string>, howMany: int): (r: Result<seq<string>>)
    ensures r.Ok? <==> seed.Some? && howMany >= 1
    ensures seed.None? ==> r == Err(IllegalArgument)
    ensures r.Ok? ==> |r.value| == howMany && r.value[0] == Lower(seed.value)
  {
    if seed.None? then Err(IllegalArgument)
    else if howMany < 0 then Err(NegativeArraySize)
    else if howMany == 0 then Err(ArrayIndexOutOfBounds)
    else Ok(Walk(dict, Lower(seed.value), howMany))
  }

  /** A seed without a stored successor repeats: every word is the seed. */
  lemma {:induction false} WalkFromDeadEnd(dict: map<string, string>, start: string, n: nat)
    requires start !in dict
    ensures forall i :: 0 <= i < n ==> Walk(dict, start, n)[i] == start
  {
    if n > 1 {
      WalkFromDeadEnd(dict, start, n - 1);
      assert Walk(dict, start, n)[..n - 1] == Walk(dict, start, n - 1);
    }
  }

  /** Walking a trained dictionary: each word after the first is the best
      successor of the word before it, or the seed again when no token
      follows that word in the corpus. */
  lemma WalkFollowsTraining(tokens: seq<string>, start: string, n: nat, i: nat)
    requires |tokens| >= 1 && 0 < i < n
    ensures var w := Walk(Trained(map[], tokens).best, start, n);
      if IsPredecessor(tokens, w[i - 1]) then IsBest(tokens, w[i - 1], w[i]) else w[i] == start
  {
    var w := Walk(Trained(map[], tokens).best, start, n);
    TrainedKeys(map[], tokens, w[i - 1]);
    if IsPredecessor(tokens, w[i - 1]) {
      TrainedBestIsBest(map[], tokens, w[i - 1]);
    }
  }

  /** Training over one more token observes one more pair. */
  lemma TrainedPrefix(d: map<string, string>, tokens: seq<string>, n: nat)
    requires 2 <= n <= |tokens|
    ensures Trained(d, tokens[..n]) == Observe(Trained(d, tokens[..n - 1]), tokens[n - 2], tokens[n - 1])
  {
    assert tokens[..n][..n - 1] == tokens[..n - 1];
  }

  class DeterministicGenerator {
    var seed: Option<string>
    var howMany: int
    var deterministicDictionary: map<string, string>

    constructor ()
      ensures seed == None && howMany == 0 && deterministicDictionary == map[]
    {
      seed, howMany, deterministicDictionary := None, 0, map[];
    }

    /** One pass over the tokens, updating local count maps and the
        dictionary field; a corpus without a token fails on its first read. */
    method Train(tokens: seq<string>) returns (r: Result<()>)
      modifies this`deterministicDictionary
      ensures r.Err? <==> |tokens| == 0
      ensures r.Err? ==> r.error == NoSuchElement && deterministicDictionary == old(deterministicDictionary)
      ensures r.Ok? ==> deterministicDictionary == Trained(old(deterministicDictionary), tokens).best
      ensures forall k :: IsPredecessor(tokens, k) ==> k in deterministicDictionary && IsBest(tokens, k, deterministicDictionary[k])
      ensures forall k :: !IsPredecessor(tokens, k) ==>
        (k in deterministicDictionary <==> k in old(deterministicDictionary)) && (k in deterministicDictionary ==> deterministicDictionary[k] == old(deterministicDictionary)[k])
    {
      if |tokens| == 0 {
        return Err(NoSuchElement);
      }
      var key := tokens[0];
      var allProbabilities: map<string, map<string, nat>> := map[];
      var maxCount: map<string, nat> := map[];
      var i := 1;
      while i < |tokens|
        invariant 1 <= i <= |tokens|
        invariant key == tokens[i - 1]
        invariant Table(allProbabilities, maxCount, deterministicDictionary) == Trained(old(deterministicDictionary), tokens[..i])
      {
        var value := tokens[i];
        ghost var before := Table(allProbabilities, maxCount, deterministicDictionary);
        if key !in allProbabilities {
          allProbabilities := allProbabilities[key := map[value := 1]];
          maxCount := maxCount[key := 1];
          deterministicDictionary := deterministicDictionary[key := value];
        } else {
          var probabilities: map<string, nat> := allProbabilities[key];
          var frequency: nat;
          if value !in probabilities {
            probabilities := probabilities[value := 1];
            frequency := 1;
          } else {
            frequency := probabilities[value] + 1;
            probabilities := probabilities[value := frequency];
          }
          allProbabilities := allProbabilities[key := probabilities];
          if maxCount[key] < frequency {
            maxCount := maxCount[key := frequency];
            deterministicDictionary := deterministicDictionary[key := value];
          } else if probabilities[value] == maxCount[key] {
            if CompareStrings(deterministicDictionary[key], value) > 0 {
              deterministicDictionary := deterministicDictionary[key := value];
            }
          }
        }
        assert Table(allProbabilities, maxCount, deterministicDictionary) == Observe(before, key, value);
        TrainedPrefix(old(deterministicDictionary), tokens, i + 1);
        key := value;
        i := i + 1;
      }
      assert tokens[..i] == tokens;
      forall k ensures IsPredecessor(tokens, k) ==> k in deterministicDictionary && IsBest(tokens, k, deterministicDictionary[k]) {
        if IsPredecessor(tokens, k) {
          TrainedBestIsBest(old(deterministicDictionary), tokens, k);
        }
      }
      forall k ensures !IsPredecessor(tokens, k) ==>
        (k in deterministicDictionary <==> k in old(deterministicDictionary)) && (k in deterministicDictionary ==> deterministicDictionary[k] == old(deterministicDictionary)[k])
      {
        TrainedKeys(old(deterministicDictionary), tokens, k);
      }
      r := Ok(());
    }

    /** Fills an array of howMany words by walking the dictionary from the
        lower-cased seed, then clears the dictionary. */
    method GetWords(seed: Option<string>, howMany: int) returns (r: Result<seq<string>>)
      modifies this`deterministicDictionary
      ensures r == Generated(old(deterministicDictionary), seed, howMany)
      ensures deterministicDictionary == if r.Ok? then map[] else old(deterministicDictionary)
    {
      if seed.None? {
        return Err(IllegalArgument);
      }
      if howMany < 0 {
        return Err(NegativeArraySize);
      }
      var output := new string[howMany];
      if howMany == 0 {
        return Err(ArrayIndexOutOfBounds);
      }
      var start := Lower(seed.value);
      var nextSeed := start;
      output[0] := nextSeed;
      ghost var walk := Walk(deterministicDictionary, start, howMany);
      for i := 1 to howMany
        invariant deterministicDictionary == old(deterministicDictionary)
        invariant nextSeed == output[i - 1]
        invariant output[..i] == walk[..i]
      {
        if nextSeed !in deterministicDictionary {
          nextSeed := start;
        } else {
          nextSeed := deterministicDictionary[nextSeed];
        }
        output[i] := nextSeed;
        assert output[..i + 1] == output[..i] + [walk[i]];
      }
      assert output[..] == output[..howMany] == walk[..howMany] == walk;
      r := Ok(output[..]);
      deterministicDictionary := map[];
    }
  }
}

=== FILE: outcomes.dfy ===
/** The ways an operation of the generators can end: with a value, or with
    one of the Java exceptions the code can throw on the way. */
module Outcomes {

  /** A Java reference that may be null. */
  datatype Option<+T> = None | Some(value: T)

  /** The runtime exceptions the generators can raise. */
  datatype Exception =
    | NoSuchElement            // Scanner.next() on a corpus with no token
    | NullPointer              // a method called on a null seed
    | IllegalArgument          // an explicit "Seed must not be null" check
    | NegativeArraySize        // new String[howMany] with howMany < 0
    | ArrayIndexOutOfBounds    // output[0] written into an array of length 0
    | StringIndexOutOfBounds   // deleteCharAt(-1) on an empty StringBuilder

  datatype Result<+T> = Ok(value: T) | Err(error: Exception)
}

=== FILE: probabilistic.dfy ===
/** ProbabilisticGenerator: training counts only the words that directly
    follow the seed; generation ranks them by count, then by word, and
    returns the first howMany of them. */
module Probabilistic {
  import opened Outcomes
  import opened Strings
  import opened Corpus

  /** A word with its count, as collected for sorting. */
  datatype Tuple = Tuple(str: string, frequency: int)

  /** a sorts ahead of b: a higher count, or the same count and a
      lexicographically smaller word. */
  predicate RanksBefore(a: Tuple, b: Tuple)
  {
    a.frequency > b.frequency || (a.frequency == b.frequency && LexLess(a.str, b.str))
  }

  /** Tuple.compareTo: negative when this tuple sorts first, positive when
      rhs does, and zero only for equal count and equal word. */
  function CompareTo(t: Tuple, rhs: Tuple): (r: int)
    ensures r < 0 <==> RanksBefore(t, rhs)
    ensures r > 0 <==> RanksBefore(rhs, t)
    ensures r == 0 <==> t == rhs
  {
    if t.frequency > rhs.frequency then -1
    else if t.frequency < rhs.frequency then 1
    else CompareStrings(t.str, rhs.str)
  }

  lemma RanksBeforeAsymmetric(a: Tuple, b: Tuple)
    ensures RanksBefore(a, b) ==> !RanksBefore(b, a)
  {
    LexLessAsymmetric(a.str, b.str);
  }

  lemma RanksBeforeTransitive(a: Tuple, b: Tuple, c: Tuple)
    requires RanksBefore(a, b) && RanksBefore(b, c)
    ensures RanksBefore(a, c)
  {
    if a.frequency == b.frequency == c.frequency {
      LexLessTransitive(a.str, b.str, c.str);
    }
  }

  /** Two different tuples are always ranked one way or the other. */
  lemma RanksBeforeTotal(a: Tuple, b: Tuple)
    requires a != b
    ensures RanksBefore(a, b) || RanksBefore(b, a)
  {
    if a.frequency == b.frequency {
      LexLessTotal(a.str, b.str);
    }
  }

  /** a does not sort after b. */
  predicate AtMost(a: Tuple, b: Tuple)
  {
    !RanksBefore(b, a)
  }

  lemma AtMostTransitive(a: Tuple, b: Tuple, c: Tuple)
    requires AtMost(a, b) && AtMost(b, c)
    ensures AtMost(a, c)
  {
    if RanksBefore(c, a) {
      if a != b && b != c {
        RanksBeforeTotal(a, b);
        RanksBeforeTotal(b, c);
        RanksBeforeTransitive(a, b, c);
        RanksBeforeAsymmetric(a, c);
      }
    }
  }

  ghost predicate Sorted(s: seq<Tuple>)
  {
    forall i, j :: 0 <= i < j < |s| ==> AtMost(s[i], s[j])
  }

  ghost predicate Distinct<T>(s: seq<T>)
  {
    forall i, j :: 0 <= i < j < |s| ==> s[i] != s[j]
  }

  /** Sorts the tuples in place (Arrays.sort on tupleArr), by insertion. */
  method SortTuples(a: array<Tuple>)
    modifies a
    ensures Sorted(a[..])
    ensures multiset(a[..]) == multiset(old(a[..]))
  {
    if a.Length == 0 {
      return;
    }
    for i := 1 to a.Length
      invariant Sorted(a[..i])
      invariant multiset(a[..]) == multiset(old(a[..]))
    {
      InsertDown(a, i);
    }
    assert a[..] == a[..a.Length];
  }

  /** Moves a[i] down past the elements of the sorted prefix a[..i] that
      rank after it, one adjacent swap at a time. */
  method InsertDown(a: array<Tuple>, i: nat)
    requires 0 < i < a.Length && Sorted(a[..i])
    modifies a
    ensures Sorted(a[..i + 1])
    ensures a[i + 1..] == old(a[i + 1..])
    ensures multiset(a[..]) == multiset(old(a[..]))
  {
    var j := i;
    while j > 0 && CompareTo(a[j - 1], a[j]) > 0
      invariant 0 <= j <= i
      invariant forall k, m :: 0 <= k < m <= i && m != j ==> AtMost(a[k], a[m])
      invariant a[i + 1..] == old(a[i + 1..])
      invariant multiset(a[..]) == multiset(old(a[..]))
    {
      RanksBeforeAsymmetric(a[j], a[j - 1]);
      Swap(a, j - 1, j);
      j := j - 1;
    }
    forall k, m | 0 <= k < m <= i
      ensures AtMost(a[k], a[m])
    {
      if m == j && k < j - 1 {
        AtMostTransitive(a[k], a[j - 1], a[j]);
      }
    }
  }

  method Swap(a: array<Tuple>, i: nat, j: nat)
    requires i < j < a.Length
    modifies a
    ensures a[i] == old(a[j]) && a[j] == old(a[i])
    ensures forall k :: 0 <= k < a.Length && k != i && k != j ==> a[k] == old(a[k])
    ensures multiset(a[..]) == multiset(old(a[..]))
  {
    a[i], a[j] := a[j], a[i];
  }

  lemma {:induction false} DistinctMultiplicity<T>(s: seq<T>, x: T)
    requires Distinct(s)
    ensures multiset(s)[x] <= 1
  {
    if |s| > 0 {
      var s' := s[1..];
      assert s == [s[0]] + s';
      DistinctMultiplicity(s', x);
      if x == s[0] {
        assert x !in s';
      }
    }
  }

  lemma DuplicateMultiplicity<T>(s: seq<T>, i: nat, j: nat)
    requires i < j < |s| && s[i] == s[j]
    ensures multiset(s)[s[i]] >= 2
  {
    assert s == s[..j] + s[j..];
    assert s[i] in s[..j];
    assert s[j] in s[j..];
  }

  /** Reordering keeps the elements distinct. */
  lemma DistinctPermutation<T>(s: seq<T>, t: seq<T>)
    requires multiset(s) == multiset(t) && Distinct(s)
    ensures Distinct(t)
  {
    forall i, j | 0 <= i < j < |t|
      ensures t[i] != t[j]
    {
      if t[i] == t[j] {
        DuplicateMultiplicity(t, i, j);
        DistinctMultiplicity(s, t[i]);
      }
    }
  }

  /** The table after training over tokens for seed, starting from table:
      every token that directly follows an occurrence of seed adds one. */
  function Counted(table: map<string, int>, seed: string, tokens: seq<string>): map<string, int>
  {
    if |tokens| < 2 then table
    else
      var t := Counted(table, seed, tokens[..|tokens| - 1]);
      var value := tokens[|tokens| - 1];
      if seed == tokens[|tokens| - 2] then t[value := if value in t then t[value] + 1 else 1] else t
  }

  function Get(table: map<string, int>, w: string): int
  {
    if w in table then table[w] else 0
  }

  /** Training adds to each word's count the number of times it directly
      follows the seed, and creates no other entry. */
  lemma {:induction false} CountedAddsPairs(table: map<string, int>, seed: string, tokens: seq<string>, w: string)
    ensures w in Counted(table, seed, tokens) <==> w in table || PairCount(tokens, seed, w) > 0
    ensures Get(Counted(table, seed, tokens), w) == Get(table, w) + PairCount(tokens, seed, w)
  {
    if |tokens| >= 2 {
      CountedAddsPairs(table, seed, tokens[..|tokens| - 1], w);
    }
  }

  /** From an empty table, each entry is exactly the pair count (seed, w),
      which is at least one; words that never follow the seed get none. */
  lemma CountedFromEmpty(seed: string, tokens: seq<string>, w: string)
    ensures w in Counted(map[], seed, tokens) <==> PairCount(tokens, seed, w) > 0
    ensures w in Counted(map[], seed, tokens) ==> Counted(map[], seed, tokens)[w] == PairCount(tokens, seed, w) >= 1
  {
    CountedAddsPairs(map[], seed, tokens, w);
  }

  /** Training twice on one instance sums the two passes' counts. */
  lemma CountedTwice(seed: string, first: seq<string>, second: seq<string>, w: string)
    ensures Get(Counted(Counted(map[], seed, first), seed, second), w)
         == PairCount(first, seed, w) + PairCount(second, seed, w)
  {
    CountedAddsPairs(map[], seed, first, w);
    CountedAddsPairs(Counted(map[], seed, first), seed, second, w);
  }

  /** From an empty table, training leaves the table empty exactly when
      nothing in the corpus follows the seed. */
  lemma CountedEmpty(seed: string, tokens: seq<string>)
    ensures Counted(map[], seed, tokens) == map[] <==> !IsPredecessor(tokens, seed)
  {
    PredecessorHasPair(tokens, seed);
    var t := Counted(map[], seed, tokens);
    if IsPredecessor(tokens, seed) {
      var b :| PairCount(tokens, seed, b) > 0;
      CountedFromEmpty(seed, tokens, b);
    } else {
      forall w
        ensures w !in t
      {
        CountedFromEmpty(seed, tokens, w);
      }
    }
  }

  /** A seed that is no token leaves the table as it was. */
  lemma {:induction false} CountedAbsentSeed(table: map<string, int>, seed: string, tokens: seq<string>)
    requires seed !in tokens
    ensures Counted(table, seed, tokens) == table
  {
    if |tokens| >= 2 {
      assert tokens[..|tokens| - 1] <= tokens;
      CountedAbsentSeed(table, seed, tokens[..|tokens| - 1]);
    }
  }

  /** The seed is compared with the lower-cased tokens as given, so a seed
      with an upper-case letter never matches and the table stays empty. */
  lemma UpperCaseSeedCountsNothing(seed: string, tokens: seq<string>)
    requires forall i :: 0 <= i < |tokens| ==> IsLower(tokens[i])
    requires !IsLower(seed)
    ensures Counted(map[], seed, tokens) == map[]
  {
    CountedAbsentSeed(map[], seed, tokens);
  }

  function Entry(table: map<string, int>, w: string): Tuple
    requires w in table
  {
    Tuple(w, table[w])
  }

  function Min(a: int, b: int): int
  {
    if a <= b then a else b
  }

  /** out is the top-howMany list of the table: as long as howMany allows
      and the table has words, made of table words in strictly decreasing
      rank, and every table word it leaves out ranks after all of them. */
  ghost predicate IsTopK(table: map<string, int>, howMany: int, out: seq<string>)
  {
    && |out| == Min(howMany, |table|)
    && (forall i :: 0 <= i < |out| ==> out[i] in table)
    && (forall i, j :: 0 <= i < j < |out| ==> RanksBefore(Entry(table, out[i]), Entry(table, out[j])))
    && (forall w, i :: w in table && w !in out && 0 <= i < |out| ==> RanksBefore(Entry(table, out[i]), Entry(table, w)))
  }

  /** The top-k list repeats no word. */
  lemma TopKDistinct(table: map<string, int>, howMany: int, out: seq<string>)
    requires IsTopK(table, howMany, out)
    ensures Distinct(out)
  {
    forall i, j | 0 <= i < j < |out|
      ensures out[i] != out[j]
    {
      if out[i] == out[j] {
        RanksBeforeAsymmetric(Entry(table, out[i]), Entry(table, out[j]));
      }
    }
  }

  /** The ranking is total on distinct words, so the top-k list is unique:
      the order in which the table hands out its entries does not matter. */
  lemma {:induction false} TopKUnique(table: map<string, int>, howMany: int, out1: seq<string>, out2: seq<string>)
    requires IsTopK(table, howMany, out1) && IsTopK(table, howMany, out2)
    ensures out1 == out2
  {
    var n := |out1|;
    var i := 0;
    while i < n
      invariant 0 <= i <= n
      invariant out1[..i] == out2[..i]
    {
      TopKAgreesAt(table, howMany, out1, out2, i);
      assert out1[..i + 1] == out1[..i] + [out1[i]];
      assert out2[..i + 1] == out2[..i] + [out2[i]];
      i := i + 1;
    }
    assert out1 == out1[..n] && out2 == out2[..n];
  }

  lemma TopKAgreesAt(table: map<string, int>, howMany: int, out1: seq<string>, out2: seq<string>, i: nat)
    requires IsTopK(table, howMany, out1) && IsTopK(table, howMany, out2)
    requires i < |out1| && out1[..i] == out2[..i]
    ensures out1[i] == out2[i]
  {
    var a, b := out1[i], out2[i];
    if a != b {
      TopKDistinct(table, howMany, out1);
      TopKDistinct(table, howMany, out2);
      assert a !in out2[..i] && b !in out1[..i];
      TopKNextRanksFirst(table, howMany, out1, i, b);
      TopKNextRanksFirst(table, howMany, out2, i, a);
      RanksBeforeTotal(Entry(table, a), Entry(table, b));
    }
  }

  /** The word at position i ranks before every table word not listed
      ahead of it: no word left for later outranks it. */
  lemma TopKNextRanksFirst(table: map<string, int>, howMany: int, out: seq<string>, i: nat, w: string)
    requires IsTopK(table, howMany, out) && i < |out|
    requires w in table && w !in out[..i]
    ensures !RanksBefore(Entry(table, w), Entry(table, out[i]))
  {
    if RanksBefore(Entry(table, w), Entry(table, out[i])) {
      if w in out {
        var j :| 0 <= j < |out| && out[j] == w;
      }
      RanksBeforeAsymmetric(Entry(table, w), Entry(table, out[i]));
    }
  }

  class ProbabilisticGenerator {
    var seed: Option<string>
    var howMany: int
    var probabilisticDictionary: map<string, int>

    constructor ()
      ensures seed == None && howMany == 0 && probabilisticDictionary == map[]
    {
      seed, howMany, probabilisticDictionary := None, 0, map[];
    }

    /** One pass over the tokens, counting the successors of the seed field.
        The first comparison dereferences the seed, so a null seed fails
        as soon as there is a second token. */
    method Train(tokens: seq<string>) returns (r: Result<()>)
      modifies this`probabilisticDictionary
      ensures r.Err? <==> |tokens| == 0 || (seed.None? && |tokens| >= 2)
      ensures r.Err? ==> r.error == if |tokens| == 0 then NoSuchElement else NullPointer
      ensures probabilisticDictionary ==
        if seed.Some? then Counted(old(probabilisticDictionary), seed.value, tokens)
        else old(probabilisticDictionary)
    {
      if |tokens| == 0 {
        return Err(NoSuchElement);
      }
      var key := tokens[0];
      var i := 1;
      while i < |tokens|
        invariant 1 <= i <= |tokens|
        invariant key == tokens[i - 1]
        invariant i > 1 ==> seed.Some?
        invariant probabilisticDictionary ==
          if seed.Some? then Counted(old(probabilisticDictionary), seed.value, tokens[..i])
          else old(probabilisticDictionary)
      {
        var value := tokens[i];
        if seed.None? {
          return Err(NullPointer);
        }
        if seed.value == key {
          if value !in probabilisticDictionary {
            probabilisticDictionary := probabilisticDictionary[value := 1];
          } else {
            probabilisticDictionary := probabilisticDictionary[value := probabilisticDictionary[value] + 1];
          }
        }
        assert tokens[..i + 1][..i] == tokens[..i];
        key := value;
        i := i + 1;
      }
      assert tokens[..i] == tokens;
      return Ok(());
    }

    /** The entry-set loop of getWords: one tuple per table entry, in
        whatever order the map hands them out. */
    method FillEntries(tupleArr: array<Tuple>) returns (ghost collected: seq<Tuple>)
      requires tupleArr.Length == |probabilisticDictionary|
      modifies tupleArr
      ensures tupleArr[..] == collected
      ensures forall k :: 0 <= k < |collected| ==>
        collected[k].str in probabilisticDictionary && collected[k] == Entry(probabilisticDictionary, collected[k].str)
      ensures forall w :: w in probabilisticDictionary ==> Entry(probabilisticDictionary, w) in collected
      ensures Distinct(collected)
    {
      var size := |probabilisticDictionary|;
      var index := 0;
      var rest := probabilisticDictionary.Keys;
      collected := [];
      while rest != {}
        invariant rest <= probabilisticDictionary.Keys
        invariant index == |collected| && index + |rest| == size
        invariant tupleArr[..index] == collected
        invariant forall k :: 0 <= k < index ==>
          collected[k].str in probabilisticDictionary && collected[k].str !in rest &&
          collected[k] == Entry(probabilisticDictionary, collected[k].str)
        invariant forall w :: w in probabilisticDictionary && w !in rest ==>
          Entry(probabilisticDictionary, w) in collected
        invariant Distinct(collected)
        decreases rest
      {
        var key :| key in rest;
        tupleArr[index] := Tuple(key, probabilisticDictionary[key]);
        collected := collected + [Tuple(key, probabilisticDictionary[key])];
        index := index + 1;
        rest := rest - {key};
      }
      assert tupleArr[..] == tupleArr[..index];
    }

    /** Collects the entries into an array, sorts it and copies the first
        min(howMany, size) words. The seed argument is not used. */
    method GetWords(seed: Option<string>, howMany: int) returns (r: Result<seq<string>>)
      ensures r.Err? <==> howMany < 0
      ensures r.Err? ==> r.error == NegativeArraySize
      ensures r.Ok? ==> IsTopK(probabilisticDictionary, howMany, r.value)
    {
      var size := |probabilisticDictionary|;
      var tupleArr := new Tuple[size];
      var outputLength: int;
      if howMany >= size {
        outputLength := size;
      } else if howMany < 0 {
        return Err(NegativeArraySize);
      } else {
        outputLength := howMany;
      }
      var output := new string[outputLength];
      ghost var collected := FillEntries(tupleArr);
      SortTuples(tupleArr);
      ghost var sorted := tupleArr[..];
      DistinctPermutation(collected, sorted);
      for i := 0 to outputLength
        invariant tupleArr[..] == sorted
        invariant forall k :: 0 <= k < i ==> output[k] == sorted[k].str
      {
        output[i] := tupleArr[i].str;
      }
      SortedIsTopK(probabilisticDictionary, collected, sorted, howMany, output[..]);
      r := Ok(output[..]);
    }
  }

  /** Doubling every count keeps the ranking of any two entries, and so
      keeps the top-k list. */
  lemma TopKDoubled(table: map<string, int>, doubled: map<string, int>, howMany: int, out: seq<string>)
    requires table.Keys == doubled.Keys
    requires forall w :: w in table ==> doubled[w] == 2 * table[w]
    ensures IsTopK(table, howMany, out) <==> IsTopK(doubled, howMany, out)
  {
    assert |table| == |table.Keys| == |doubled.Keys| == |doubled|;
    forall a, b | a in table && b in table
      ensures RanksBefore(Entry(table, a), Entry(table, b)) <==> RanksBefore(Entry(doubled, a), Entry(doubled, b))
    {
    }
  }

  /** Training a second time on the same corpus with the same seed doubles
      every count, so getWords returns the same words as after one pass. */
  lemma TrainedTwiceSameTopK(seed: string, tokens: seq<string>, howMany: int, out: seq<string>)
    ensures forall w :: Get(Counted(Counted(map[], seed, tokens), seed, tokens), w) == 2 * Get(Counted(map[], seed, tokens), w)
    ensures IsTopK(Counted(Counted(map[], seed, tokens), seed, tokens), howMany, out)
        <==> IsTopK(Counted(map[], seed, tokens), howMany, out)
  {
    var once := Counted(map[], seed, tokens);
    var twice := Counted(once, seed, tokens);
    forall w
      ensures (w in once <==> w in twice) && (w in once ==> twice[w] == 2 * once[w])
      ensures Get(twice, w) == 2 * Get(once, w)
    {
      CountedFromEmpty(seed, tokens, w);
      CountedAddsPairs(once, seed, tokens, w);
    }
    TopKDoubled(once, twice, howMany, out);
  }

  /** The words of the first Min(howMany, |table|) sorted entries form the
      top-k list. */
  lemma SortedIsTopK(table: map<string, int>, collected: seq<Tuple>, sorted: seq<Tuple>, howMany: int, out: seq<string>)
    requires |collected| == |table| && |sorted| == |table| && multiset(collected) == multiset(sorted)
    requires forall k :: 0 <= k < |collected| ==> collected[k].str in table && collected[k] == Entry(table, collected[k].str)
    requires forall w :: w in table ==> Entry(table, w) in collected
    requires Distinct(sorted) && Sorted(sorted)
    requires |out| == Min(howMany, |table|)
    requires forall k :: 0 <= k < |out| ==> out[k] == sorted[k].str
    ensures IsTopK(table, howMany, out)
  {
    var n := |out|;
    forall k | 0 <= k < |sorted|
      ensures sorted[k].str in table && sorted[k] == Entry(table, sorted[k].str)
    {
      assert sorted[k] in multiset(collected);
    }
    forall i, j | 0 <= i < j < n
      ensures RanksBefore(Entry(table, out[i]), Entry(table, out[j]))
    {
      RanksBeforeTotal(sorted[i], sorted[j]);
    }
    forall w, i | w in table && w !in out && 0 <= i < n
      ensures RanksBefore(Entry(table, out[i]), Entry(table, w))
    {
      assert Entry(table, w) in multiset(sorted);
      var j :| 0 <= j < |sorted| && sorted[j] == Entry(table, w);
      assert forall k :: 0 <= k < n ==> sorted[k].str != w;
      assert j >= n;
      RanksBeforeTotal(sorted[i], sorted[j]);
    }
  }
}

=== FILE: random.dfy ===
/** RandomGenerator: training appends every successor occurrence to a
    per-predecessor list (an index map keyed 0, 1, 2, ...), so a successor
    seen k times takes k slots; generation draws a uniform index into the
    current word's list, falling back to the seed as passed when the word
    has no list. */
module Random {
  import opened Outcomes
  import opened Strings
  import opened Corpus

  /** The keys of an index map are exactly 0 .. size-1. */
  ghost predicate Contiguous(m: map<int, string>)
  {
    forall i :: i in m <==> 0 <= i < |m|
  }

  /** Every list is an index map with at least one entry. */
  ghost predicate ValidDictionary(d: map<string, map<int, string>>)
  {
    forall w :: w in d ==> Contiguous(d[w]) && |d[w]| > 0
  }

  /** The list an index map stands for. */
  function AsList(m: map<int, string>): seq<string>
    requires Contiguous(m)
  {
    seq(|m|, i requires 0 <= i < |m| => m[i])
  }

  /** The successor list of w, empty when w has no entry. */
  ghost function ListOf(d: map<string, map<int, string>>, w: string): seq<string>
    requires ValidDictionary(d)
  {
    if w in d then AsList(d[w]) else []
  }

  /** Puts value at the index equal to the list's current size. */
  function Append(m: map<int, string>, value: string): map<int, string>
  {
    m[|m| := value]
  }

  /** The dictionary after training over tokens, starting from d. */
  function Listed(d: map<string, map<int, string>>, tokens: seq<string>): map<string, map<int, string>>
  {
    if |tokens| < 2 then d
    else
      var t := Listed(d, tokens[..|tokens| - 1]);
      var key := tokens[|tokens| - 2];
      var probabilities := if key in t then t[key] else map[];
      t[key := Append(probabilities, tokens[|tokens| - 1])]
  }

  /** Appending at index size keeps the keys contiguous and extends the list. */
  lemma AppendExtends(m: map<int, string>, value: string)
    requires Contiguous(m)
    ensures Contiguous(Append(m, value)) && |Append(m, value)| == |m| + 1
    ensures AsList(Append(m, value)) == AsList(m) + [value]
  {
    var n := |m|;
    assert n !in m;
    var m' := m[n := value];
    assert |m'| == n + 1;
    assert Contiguous(m') by {
      forall i ensures i in m' <==> 0 <= i < |m'| {
        assert i in m' <==> i in m || i == n;
      }
    }
    var l, l' := AsList(m), AsList(m');
    assert |l'| == |l + [value]|;
    forall i | 0 <= i < |l'| ensures l'[i] == (l + [value])[i] {
      if i < n {
        assert l'[i] == m[i] == l[i];
      }
    }
  }

  /** Training over one more token appends one more successor. */
  lemma ListedSnoc(d: map<string, map<int, string>>, tokens: seq<string>)
    requires |tokens| >= 2
    ensures var t := Listed(d, tokens[..|tokens| - 1]);
      var key := tokens[|tokens| - 2];
      Listed(d, tokens) == t[key := Append(if key in t then t[key] else map[], tokens[|tokens| - 1])]
  {
  }

  /** Training keeps every list an index map with contiguous keys and at
      least one entry. */
  lemma {:induction false} ListedValid(d: map<string, map<int, string>>, tokens: seq<string>)
    requires ValidDictionary(d)
    ensures ValidDictionary(Listed(d, tokens))
  {
    if |tokens| >= 2 {
      var s := tokens[..|tokens| - 1];
      ListedValid(d, s);
      var t := Listed(d, s);
      var key := tokens[|tokens| - 2];
      var probabilities := if key in t then t[key] else map[];
      AppendExtends(probabilities, tokens[|tokens| - 1]);
      ListedSnoc(d, tokens);
    }
  }

  /** Training appends to w's list exactly the tokens that follow w, in
      corpus order. */
  lemma {:induction false} ListedAppends(d: map<string, map<int, string>>, tokens: seq<string>, w: string)
    requires ValidDictionary(d)
    ensures ValidDictionary(Listed(d, tokens))
    ensures ListOf(Listed(d, tokens), w) == ListOf(d, w) + Successors(tokens, w)
  {
    ListedValid(d, tokens);
    if |tokens| >= 2 {
      var s := tokens[..|tokens| - 1];
      var key := tokens[|tokens| - 2];
      var value := tokens[|tokens| - 1];
      ListedAppends(d, s, w);
      ListedValid(d, s);
      var t := Listed(d, s);
      ListedSnoc(d, tokens);
      if w == key {
        var probabilities := if key in t then t[key] else map[];
        AppendExtends(probabilities, value);
        assert ListOf(t, key) == AsList(probabilities);
      }
    }
  }

  /** Training gives an entry to the words it had and to the predecessors,
      and to no other word; a word that no token follows keeps its entry. */
  lemma {:induction false} ListedKeys(d: map<string, map<int, string>>, tokens: seq<string>, w: string)
    ensures w in Listed(d, tokens) <==> w in d || IsPredecessor(tokens, w)
    ensures w in d && !IsPredecessor(tokens, w) ==> Listed(d, tokens)[w] == d[w]
  {
    if |tokens| >= 2 {
      var s := tokens[..|tokens| - 1];
      ListedKeys(d, s, w);
      assert tokens == s + [tokens[|tokens| - 1]];
      IsPredecessorSnoc(s, tokens[|tokens| - 1], w);
    }
  }

  /** From an empty dictionary: w's list is the tokens following w in
      corpus order, a word following w k times fills exactly k slots, and
      w has a (non-empty) list exactly when it is a predecessor. */
  lemma TrainedFromEmpty(tokens: seq<string>, w: string, v: string)
    ensures ValidDictionary(Listed(map[], tokens))
    ensures ListOf(Listed(map[], tokens), w) == Successors(tokens, w)
    ensures multiset(ListOf(Listed(map[], tokens), w))[v] == PairCount(tokens, w, v)
    ensures w in Listed(map[], tokens) <==> IsPredecessor(tokens, w)
  {
    ListedAppends(map[], tokens, w);
    SuccessorsCountPairs(tokens, w, v);
    ListedKeys(map[], tokens, w);
  }

  /** The word getWords may write after cur: the entry at some index
      0 <= index < size of cur's list, or the seed exactly as passed when
      cur has no list. */
  ghost predicate Drawn(d: map<string, map<int, string>>, cur: string, seed: string, w: string)
  {
    if cur in d then exists index :: 0 <= index < |d[cur]| && index in d[cur] && d[cur][index] == w
    else w == seed
  }

  /** Every output getWords can produce for seed and n. */
  ghost predicate IsRandomWalk(d: map<string, map<int, string>>, seed: string, n: int, out: seq<string>)
  {
    && n >= 1 && |out| == n
    && out[0] == Lower(seed)
    && forall i :: 1 <= i < n ==> Drawn(d, out[i - 1], seed, out[i])
  }

  /** With a trained dictionary, each word after the first followed the
      word before it somewhere in the corpus, unless no token follows
      that word, in which case it is the seed as passed. */
  lemma RandomWalkFollowsCorpus(tokens: seq<string>, seed: string, n: int, out: seq<string>, i: nat)
    requires IsRandomWalk(Listed(map[], tokens), seed, n, out) && 1 <= i < n
    ensures IsPredecessor(tokens, out[i - 1]) ==> PairCount(tokens, out[i - 1], out[i]) > 0
    ensures !IsPredecessor(tokens, out[i - 1]) ==> out[i] == seed
  {
    var d := Listed(map[], tokens);
    var cur := out[i - 1];
    TrainedFromEmpty(tokens, cur, out[i]);
    assert Drawn(d, cur, seed, out[i]);
    if cur in d {
      var k :| 0 <= k < |d[cur]| && k in d[cur] && d[cur][k] == out[i];
      assert ListOf(d, cur)[k] == out[i];
      assert out[i] in multiset(ListOf(d, cur));
    }
  }

  /** The fallback writes the seed without lower-casing it. Trained keys
      are lower-case, so once a seed with an upper-case letter is written,
      it has no list either, and every later word is that same seed. */
  lemma {:induction false} RawSeedFallbackRepeats(d: map<string, map<int, string>>, seed: string, n: int, out: seq<string>, i: nat, j: nat)
    requires IsRandomWalk(d, seed, n, out)
    requires forall w :: w in d ==> IsLower(w)
    requires !IsLower(seed)
    requires 1 <= i <= j < n && out[i] == seed
    ensures out[j] == seed
    decreases j
  {
    if j > i {
      RawSeedFallbackRepeats(d, seed, n, out, i, j - 1);
      assert seed !in d;
      assert Drawn(d, out[j - 1], seed, out[j]);
    }
  }

  class RandomGenerator {
    var seed: Option<string>
    var howMany: int
    var randomDictionary: map<string, map<int, string>>

    ghost predicate Valid()
      reads this
    {
      ValidDictionary(randomDictionary)
    }

    constructor ()
      ensures Valid()
      ensures seed == None && howMany == 0 && randomDictionary == map[]
    {
      seed, howMany, randomDictionary := None, 0, map[];
    }

    /** One pass over the tokens, appending each token to the list of the
        token before it; a corpus without a token fails on its first read. */
    method Train(tokens: seq<string>) returns (r: Result<()>)
      requires Valid()
      modifies this`randomDictionary
      ensures Valid()
      ensures r.Err? <==> |tokens| == 0
      ensures r.Err? ==> r.error == NoSuchElement
      ensures randomDictionary == Listed(old(randomDictionary), tokens)
      ensures forall w :: ListOf(randomDictionary, w) == ListOf(old(randomDictionary), w) + Successors(tokens, w)
    {
      if |tokens| == 0 {
        return Err(NoSuchElement);
      }
      var key := tokens[0];
      var i := 1;
      while i < |tokens|
        invariant 1 <= i <= |tokens|
        invariant key == tokens[i - 1]
        invariant randomDictionary == Listed(old(randomDictionary), tokens[..i])
      {
        var value := tokens[i];
        var probabilities: map<int, string>;
        if key !in randomDictionary {
          probabilities := map[];
          randomDictionary := randomDictionary[key := probabilities];
        } else {
          probabilities := randomDictionary[key];
        }
        probabilities := probabilities[|probabilities| := value];
        randomDictionary := randomDictionary[key := probabilities];
        assert tokens[..i + 1][..i] == tokens[..i];
        ListedSnoc(old(randomDictionary), tokens[..i + 1]);
        key := value;
        i := i + 1;
      }
      assert tokens[..i] == tokens;
      ListedAppends(old(randomDictionary), tokens, key);
      forall w ensures ListOf(randomDictionary, w) == ListOf(old(randomDictionary), w) + Successors(tokens, w) {
        ListedAppends(old(randomDictionary), tokens, w);
      }
      r := Ok(());
    }

    /** Fills an array of howMany words, drawing each one uniformly from
        the list of the word before it. */
    method GetWords(seed: Option<string>, howMany: int) returns (r: Result<seq<string>>)
      requires Valid()
      ensures r.Ok? <==> howMany >= 1 && seed.Some?
      ensures howMany < 0 ==> r == Err(NegativeArraySize)
      ensures howMany >= 0 && seed.None? ==> r == Err(NullPointer)
      ensures howMany == 0 && seed.Some? ==> r == Err(ArrayIndexOutOfBounds)
      ensures r.Ok? ==> IsRandomWalk(randomDictionary, seed.value, howMany, r.value)
    {
      if howMany < 0 {
        return Err(NegativeArraySize);
      }
      var output := new string[howMany];
      if seed.None? {
        return Err(NullPointer);
      }
      var count := 1;
      var currentWord := Lower(seed.value);
      if howMany == 0 {
        return Err(ArrayIndexOutOfBounds);
      }
      output[0] := currentWord;
      while count < howMany
        invariant 1 <= count <= howMany
        invariant currentWord == output[count - 1]
        invariant output[0] == Lower(seed.value)
        invariant forall i :: 1 <= i < count ==> Drawn(randomDictionary, output[i - 1], seed.value, output[i])
      {
        if currentWord !in randomDictionary {
          output[count] := seed.value;
        } else {
          var size := |randomDictionary[currentWord]|;
          var index :| 0 <= index < size;
          output[count] := randomDictionary[currentWord][index];
        }
        currentWord := output[count];
        count := count + 1;
      }
      r := Ok(output[..]);
    }
  }
}

=== FILE: scenarios.dfy ===
/** Generate on one small corpus, "the cat sat on the mat the cat ran",
    worked out step by step. Every lemma takes the corpus as a parameter
    equal to Sample, so the verifier unfolds training one pair at a time. */
module Scenarios {
  import opened Outcomes
  import opened Strings
  import opened TextGenerator
  import D = Deterministic
  import P = Probabilistic

  const Sample: seq<string> := ["the", "cat", "sat", "on", "the", "mat", "the", "cat", "ran"]

  /** The deterministic table holds, for key k, these counts, this maximum
      and this best successor. */
  ghost predicate Holds(t: D.Table, k: string, counts: map<string, nat>, max: nat, best: string)
  {
    k in t.counts && t.counts[k] == counts && k in t.maxCount && t.maxCount[k] == max && k in t.best && t.best[k] == best
  }

  ghost function After(s: seq<string>, n: nat): D.Table
    requires 1 <= n <= |s|
  {
    D.Trained(map[], s[..n])
  }

  lemma Prefix(s: seq<string>, n: nat)
    requires 2 <= n <= |s|
    ensures After(s, n) == D.Observe(After(s, n - 1), s[n - 2], s[n - 1])
  {
    assert s[..n][..n - 1] == s[..n - 1];
  }

  /** A pair for another key leaves k's entry alone. */
  lemma Keep(t: D.Table, key: string, value: string, k: string, counts: map<string, nat>, max: nat, best: string)
    requires D.WellFormed(t) && key != k && Holds(t, k, counts, max, best)
    ensures Holds(D.Observe(t, key, value), k, counts, max, best)
  {
    D.ObserveFrame(t, key, value);
  }

  /** A pair that pushes its successor past the maximum makes it the best. */
  lemma Raise(t: D.Table, key: string, value: string, counts: map<string, nat>, max: nat, best: string)
    requires D.WellFormed(t) && Holds(t, key, counts, max, best)
    requires value in counts && counts[value] + 1 > max
    ensures Holds(D.Observe(t, key, value), key, counts[value := counts[value] + 1], counts[value] + 1, value)
  {
  }

  /** A first pair that ties a maximum of one goes through the tie-break. */
  lemma Tie(t: D.Table, key: string, value: string, counts: map<string, nat>, best: string)
    requires D.WellFormed(t) && Holds(t, key, counts, 1, best)
    requires value !in counts
    ensures Holds(D.Observe(t, key, value), key, counts[value := 1], 1, if CompareStrings(best, value) > 0 then value else best)
  {
  }

  lemma Step3(s: seq<string>)
    requires s == Sample
    ensures Holds(After(s, 3), "the", map["cat" := 1], 1, "cat")
    ensures Holds(After(s, 3), "cat", map["sat" := 1], 1, "sat")
  {
    Prefix(s, 2);
    assert "cat" !in After(s, 2).counts;
    Prefix(s, 3);
  }

  lemma Step5(s: seq<string>)
    requires s == Sample
    ensures Holds(After(s, 5), "the", map["cat" := 1], 1, "cat")
    ensures Holds(After(s, 5), "cat", map["sat" := 1], 1, "sat")
  {
    Step3(s);
    Prefix(s, 4);
    Keep(After(s, 3), "sat", "on", "the", map["cat" := 1], 1, "cat");
    Keep(After(s, 3), "sat", "on", "cat", map["sat" := 1], 1, "sat");
    Prefix(s, 5);
    Keep(After(s, 4), "on", "the", "the", map["cat" := 1], 1, "cat");
    Keep(After(s, 4), "on", "the", "cat", map["sat" := 1], 1, "sat");
  }

  /** "mat" ties "cat" after "the" and loses the tie-break. */
  lemma Step6(s: seq<string>)
    requires s == Sample
    ensures Holds(After(s, 6), "the", map["cat" := 1, "mat" := 1], 1, "cat")
    ensures Holds(After(s, 6), "cat", map["sat" := 1], 1, "sat")
  {
    Step5(s);
    Prefix(s, 6);
    assert CompareStrings("cat", "mat") < 0 by {
      assert CommonPrefix("cat", "mat") == 0;
    }
    Tie(After(s, 5), "the", "mat", map["cat" := 1], "cat");
    assert map["cat" := 1]["mat" := 1] == map["cat" := 1, "mat" := 1];
    Keep(After(s, 5), "the", "mat", "cat", map["sat" := 1], 1, "sat");
  }

  lemma Step7(s: seq<string>)
    requires s == Sample
    ensures Holds(After(s, 7), "the", map["cat" := 1, "mat" := 1], 1, "cat")
    ensures Holds(After(s, 7), "cat", map["sat" := 1], 1, "sat")
  {
    Step6(s);
    Prefix(s, 7);
    Keep(After(s, 6), "mat", "the", "the", map["cat" := 1, "mat" := 1], 1, "cat");
    Keep(After(s, 6), "mat", "the", "cat", map["sat" := 1], 1, "sat");
  }

  /** The second "the cat" raises the maximum for "the" to two. */
  lemma Step8(s: seq<string>)
    requires s == Sample
    ensures Holds(After(s, 8), "the", map["cat" := 2, "mat" := 1], 2, "cat")
    ensures Holds(After(s, 8), "cat", map["sat" := 1], 1, "sat")
  {
    Step7(s);
    Prefix(s, 8);
    Step8Pair(After(s, 7));
  }

  lemma Step8Pair(t: D.Table)
    requires D.WellFormed(t)
    requires Holds(t, "the", map["cat" := 1, "mat" := 1], 1, "cat")
    requires Holds(t, "cat", map["sat" := 1], 1, "sat")
    ensures Holds(D.Observe(t, "the", "cat"), "the", map["cat" := 2, "mat" := 1], 2, "cat")
    ensures Holds(D.Observe(t, "the", "cat"), "cat", map["sat" := 1], 1, "sat")
  {
    Raise(t, "the", "cat", map["cat" := 1, "mat" := 1], 1, "cat");
    assert map["cat" := 1, "mat" := 1]["cat" := 2] == map["cat" := 2, "mat" := 1];
    Keep(t, "the", "cat", "cat", map["sat" := 1], 1, "sat");
  }

  /** "ran" ties "sat" after "cat" and wins the tie-break. */
  lemma Step9(s: seq<string>)
    requires s == Sample
    ensures Holds(After(s, 9), "the", map["cat" := 2, "mat" := 1], 2, "cat")
    ensures Holds(After(s, 9), "cat", map["sat" := 1, "ran" := 1], 1, "ran")
  {
    Step8(s);
    Prefix(s, 9);
    assert CompareStrings("sat", "ran") > 0 by {
      assert CommonPrefix("sat", "ran") == 0;
    }
    Tie(After(s, 8), "cat", "ran", map["sat" := 1], "sat");
    assert map["sat" := 1]["ran" := 1] == map["sat" := 1, "ran" := 1];
    Keep(After(s, 8), "cat", "ran", "the", map["cat" := 2, "mat" := 1], 2, "cat");
  }

  /** Three words from "the": "cat" follows "the" twice, and "sat" and
      "ran" each follow "cat" once, so the tie-break picks "ran". */
  lemma DeterministicScenario(tokens: seq<string>)
    requires tokens == Sample
    ensures DeterministicOutcome(map[], tokens, Some("the"), 3) == Ok("the cat ran")
  {
    Step9(tokens);
    assert tokens[..9] == tokens;
    assert Lower("the") == "the";
    WalkSample(D.Trained(map[], tokens).best);
  }

  lemma WalkSample(best: map<string, string>)
    requires "the" in best && best["the"] == "cat" && "cat" in best && best["cat"] == "ran"
    ensures Joined(D.Walk(best, "the", 3)) == "the cat ran"
  {
    var words := D.Walk(best, "the", 3);
    assert words == ["the", "cat", "ran"];
    assert words[..2][..1] == ["the"];
    assert Joined(words[..2]) == "the cat";
    assert Joined(words) == "the cat" + " " + "ran";
  }

  ghost function CountedAfter(s: seq<string>, n: nat): map<string, int>
    requires n <= |s|
  {
    P.Counted(map[], "the", s[..n])
  }

  lemma CountedPrefix(s: seq<string>, n: nat)
    requires 2 <= n <= |s|
    ensures CountedAfter(s, n) ==
      var t := CountedAfter(s, n - 1);
      if s[n - 2] == "the" then t[s[n - 1] := if s[n - 1] in t then t[s[n - 1]] + 1 else 1] else t
  {
    assert s[..n][..n - 1] == s[..n - 1];
  }

  lemma CountedFirstFive(s: seq<string>)
    requires s == Sample
    ensures CountedAfter(s, 5) == map["cat" := 1]
  {
    CountedPrefix(s, 2);
    CountedPrefix(s, 3);
    CountedPrefix(s, 4);
    CountedPrefix(s, 5);
  }

  /** Only the pairs starting with "the" count: "cat" twice, "mat" once. */
  lemma CountedSample(s: seq<string>)
    requires s == Sample
    ensures CountedAfter(s, 9) == map["cat" := 2, "mat" := 1]
  {
    CountedFirstFive(s);
    CountedPrefix(s, 6);
    CountedPrefix(s, 7);
    assert CountedAfter(s, 7) == map["cat" := 1, "mat" := 1];
    CountedPrefix(s, 8);
    assert CountedAfter(s, 8) == map["cat" := 2, "mat" := 1];
    CountedPrefix(s, 9);
  }

  /** Five words asked for after "the", but only two distinct words follow
      it: the output is "cat" (twice) then "mat" (once), and no other
      outcome is possible. */
  lemma ProbabilisticScenario(tokens: seq<string>, r: Result<string>)
    requires tokens == Sample
    ensures ProbabilisticOutcome(map[], tokens, Some("the"), 5, r) <==> r == Ok("cat mat")
  {
    CountedSample(tokens);
    assert tokens[..9] == tokens;
    var table := P.Counted(map[], "the", tokens);
    assert table == map["cat" := 2, "mat" := 1];
    var words := ["cat", "mat"];
    assert |table| == 2;
    assert P.IsTopK(table, 5, words);
    assert Joined(words) == "cat mat" by {
      assert words[..1] == ["cat"];
    }
    assert Sentence(words) == Ok("cat mat");
    assert ProbabilisticOutcome(map[], tokens, Some("the"), 5, Ok("cat mat"));
    if ProbabilisticOutcome(map[], tokens, Some("the"), 5, r) {
      ProbabilisticOutcomeUnique(map[], tokens, Some("the"), 5, r, Ok("cat mat"));
    }
  }
}

=== FILE: strings.dfy ===
/** The two operations of java.lang.String the generators rely on:
    toLowerCase (on the ASCII letters, the only letters a token can contain)
    and compareTo, the lexicographic order by character code. */
module Strings {

  function LowerChar(c: char): char
  {
    if 'A' <= c <= 'Z' then (c as int + 32) as char else c
  }

  /** No character of s is an upper-case ASCII letter. */
  predicate IsLower(s: string)
  {
    forall i :: 0 <= i < |s| ==> !('A' <= s[i] <= 'Z')
  }

  /** String.toLowerCase restricted to ASCII folding. */
  function Lower(s: string): (r: string)
    ensures |r| == |s| && IsLower(r)
    ensures r == s <==> IsLower(s)
  {
    var r := seq(|s|, i requires 0 <= i < |s| => LowerChar(s[i]));
    assert !IsLower(s) ==> r != s by {
      if !IsLower(s) {
        var i :| 0 <= i < |s| && 'A' <= s[i] <= 'Z';
        assert r[i] != s[i];
      }
    }
    r
  }

  /** The length of the longest common prefix of a and b: the index at
      which String.compareTo looks for the first differing character. */
  function CommonPrefix(a: string, b: string): (k: nat)
    ensures k <= |a| && k <= |b|
    ensures a[..k] == b[..k]
    ensures k < |a| && k < |b| ==> a[k] != b[k]
  {
    if |a| == 0 || |b| == 0 || a[0] != b[0] then 0
    else
      var k' := CommonPrefix(a[1..], b[1..]);
      assert a[..k' + 1] == [a[0]] + a[1..][..k'];
      assert b[..k' + 1] == [b[0]] + b[1..][..k'];
      1 + k'
  }

  /** Lexicographic order as the Javadoc of String.compareTo defines it:
      at the first index where the strings differ the smaller character
      wins; if there is none, the shorter string (a proper prefix) wins. */
  predicate LexLess(a: string, b: string)
  {
    var k := CommonPrefix(a, b);
    (k == |a| && k < |b|) || (k < |a| && k < |b| && a[k] < b[k])
  }

  /** String.compareTo: the difference of the first differing characters,
      or else the difference of the lengths. Its sign is the order LexLess. */
  function CompareStrings(a: string, b: string): (r: int)
    ensures r == 0 <==> a == b
    ensures r < 0 <==> LexLess(a, b)
    ensures r > 0 <==> LexLess(b, a)
  {
    CommonPrefixSymmetric(a, b);
    var k := CommonPrefix(a, b);
    assert k == |a| && k == |b| ==> a == a[..k] == b[..k] == b;
    if k < |a| && k < |b| then a[k] as int - b[k] as int else |a| - |b|
  }

  lemma {:induction false} CommonPrefixSymmetric(a: string, b: string)
    ensures CommonPrefix(a, b) == CommonPrefix(b, a)
  {
    if |a| == 0 || |b| == 0 || a[0] != b[0] {
    } else {
      CommonPrefixSymmetric(a[1..], b[1..]);
    }
  }

  /** LexLess read one character at a time. */
  lemma LexLessUnfold(a: string, b: string)
    ensures |a| == 0 ==> (LexLess(a, b) <==> |b| > 0)
    ensures |a| > 0 && |b| == 0 ==> !LexLess(a, b)
    ensures |a| > 0 && |b| > 0 ==>
      (LexLess(a, b) <==> a[0] < b[0] || (a[0] == b[0] && LexLess(a[1..], b[1..])))
  {
    if |a| > 0 && |b| > 0 && a[0] == b[0] {
      var k' := CommonPrefix(a[1..], b[1..]);
      assert CommonPrefix(a, b) == 1 + k';
      assert k' < |a[1..]| ==> a[1 + k'] == a[1..][k'];
      assert k' < |b[1..]| ==> b[1 + k'] == b[1..][k'];
    }
  }

  lemma {:induction false} LexLessIrreflexive(a: string)
    ensures !LexLess(a, a)
  {
  }

  lemma {:induction false} LexLessAsymmetric(a: string, b: string)
    ensures LexLess(a, b) ==> !LexLess(b, a)
  {
    LexLessUnfold(a, b);
    LexLessUnfold(b, a);
    if |a| > 0 && |b| > 0 && a[0] == b[0] {
      LexLessAsymmetric(a[1..], b[1..]);
    }
  }

  /** Any two different strings are ordered one way or the other. */
  lemma {:induction false} LexLessTotal(a: string, b: string)
    requires a != b
    ensures LexLess(a, b) || LexLess(b, a)
  {
    LexLessUnfold(a, b);
    LexLessUnfold(b, a);
    if |a| > 0 && |b| > 0 && a[0] == b[0] {
      assert a == [a[0]] + a[1..] && b == [b[0]] + b[1..];
      LexLessTotal(a[1..], b[1..]);
    }
  }

  lemma {:induction false} LexLessTransitive(a: string, b: string, c: string)
    requires LexLess(a, b) && LexLess(b, c)
    ensures LexLess(a, c)
  {
    LexLessUnfold(a, b);
    LexLessUnfold(b, c);
    LexLessUnfold(a, c);
    if |a| > 0 && a[0] == b[0] && b[0] == c[0] {
      LexLessTransitive(a[1..], b[1..], c[1..]);
    }
  }
}

=== FILE: text_generator.dfy ===
/** The driver shared by the three generators: generate stores the seed and
    the word count in the generator's fields, trains it on the corpus, asks
    it for the words and joins them with single spaces. */
module TextGenerator {
  import opened Outcomes
  import opened Strings
  import opened Corpus
  import D = Deterministic
  import P = Probabilistic
  import R = Random

  /** The words separated by single spaces, with nothing before the first
      or after the last. */
  function Joined(words: seq<string>): string
    requires |words| >= 1
  {
    if |words| == 1 then words[0]
    else Joined(words[..|words| - 1]) + " " + words[|words| - 1]
  }

  /** What the StringBuilder holds after the append loop: every word
      followed by one space. */
  function Appended(words: seq<string>): string
  {
    if |words| == 0 then ""
    else Appended(words[..|words| - 1]) + words[|words| - 1] + " "
  }

  /** The sum of the word lengths. */
  function TotalLength(words: seq<string>): nat
  {
    if |words| == 0 then 0
    else TotalLength(words[..|words| - 1]) + |words[|words| - 1]|
  }

  /** The rendered output of a word array. deleteCharAt(length - 1) on an
      empty builder fails, so an empty array has no rendering. */
  function Sentence(words: seq<string>): Result<string>
  {
    if |words| == 0 then Err(StringIndexOutOfBounds) else Ok(Joined(words))
  }

  /** The pieces of s between its spaces, empty pieces included: the
      inverse of Joined. */
  function Split(s: string): (pieces: seq<string>)
    ensures |pieces| >= 1
  {
    if |s| == 0 then [""]
    else
      var r := Split(s[..|s| - 1]);
      if s[|s| - 1] == ' ' then r + [""]
      else r[..|r| - 1] + [r[|r| - 1] + [s[|s| - 1]]]
  }

  predicate NoSpace(w: string)
  {
    ' ' !in w
  }

  /** Once the loop has appended a trailing space after every word, removing
      the last character leaves the words joined by single spaces. */
  lemma {:induction false} AppendedJoined(words: seq<string>)
    requires |words| >= 1
    ensures Appended(words) == Joined(words) + " "
  {
    if |words| > 1 {
      var prefix := words[..|words| - 1];
      AppendedJoined(prefix);
      assert Appended(words) == Appended(prefix) + words[|words| - 1] + " ";
    } else {
      assert words[..0] == [];
    }
  }

  /** A word without a space is one piece. */
  lemma {:induction false} SplitWord(w: string)
    requires NoSpace(w)
    ensures Split(w) == [w]
  {
    if |w| > 0 {
      var w' := w[..|w| - 1];
      assert NoSpace(w') by {
        assert forall i :: 0 <= i < |w'| ==> w'[i] == w[i];
      }
      SplitWord(w');
      assert w == w' + [w[|w| - 1]];
    }
  }

  /** Appending a space and a word without a space adds exactly that piece. */
  lemma {:induction false} SplitSnocWord(a: string, w: string)
    requires NoSpace(w)
    ensures Split(a + " " + w) == Split(a) + [w]
    decreases |w|
  {
    if |w| == 0 {
      assert (a + " ")[..|a|] == a;
      assert a + " " + w == a + " ";
    } else {
      var w' := w[..|w| - 1];
      var c := w[|w| - 1];
      assert NoSpace(w') by {
        assert forall i :: 0 <= i < |w'| ==> w'[i] == w[i];
      }
      assert c != ' ' by {
        assert w[|w| - 1] in w;
      }
      SplitSnocWord(a, w');
      var s := a + " " + w;
      assert s[..|s| - 1] == a + " " + w';
      assert s[|s| - 1] == c;
      assert w == w' + [c];
    }
  }

  /** Splitting the rendering at its spaces gives back the words, when no
      word holds a space: the separators are exactly the joining spaces. */
  lemma {:induction false} SplitJoined(words: seq<string>)
    requires |words| >= 1
    requires forall i :: 0 <= i < |words| ==> NoSpace(words[i])
    ensures Split(Joined(words)) == words
  {
    if |words| == 1 {
      SplitWord(words[0]);
    } else {
      var prefix := words[..|words| - 1];
      SplitJoined(prefix);
      SplitSnocWord(Joined(prefix), words[|words| - 1]);
    }
  }

  /** The rendering is as long as the words plus one space between each
      consecutive pair. */
  lemma {:induction false} JoinedLength(words: seq<string>)
    requires |words| >= 1
    ensures |Joined(words)| == TotalLength(words) + |words| - 1
  {
    if |words| > 1 {
      JoinedLength(words[..|words| - 1]);
    } else {
      assert words[..0] == [];
    }
  }

  /** The StringBuilder loop of generate: append each word and a space,
      then delete the last character. */
  method Render(words: seq<string>) returns (r: Result<string>)
    ensures r == Sentence(words)
  {
    var output: string := "";
    for i := 0 to |words|
      invariant output == Appended(words[..i])
    {
      assert words[..i + 1][..i] == words[..i];
      output := output + words[i];
      output := output + " ";
    }
    assert words[..|words|] == words;
    if |output| == 0 {
      return Err(StringIndexOutOfBounds);
    }
    AppendedJoined(words);
    r := Ok(output[..|output| - 1]);
  }

  /** Which generator the command line chose. */
  datatype Generator =
    | Deterministic(d: D.DeterministicGenerator)
    | Probabilistic(p: P.ProbabilisticGenerator)
    | Random(g: R.RandomGenerator)
  {
    /** The object generate updates. */
    function Target(): object
    {
      match this
      case Deterministic(d) => d
      case Probabilistic(p) => p
      case Random(g) => g
    }
  }

  /** What generate produces with the deterministic generator whose
      dictionary is dict before the call. */
  ghost function DeterministicOutcome(dict: map<string, string>, tokens: seq<string>, seed: Option<string>, howMany: int): Result<string>
  {
    if |tokens| == 0 then Err(NoSuchElement)
    else
      match D.Generated(D.Trained(dict, tokens).best, seed, howMany)
      case Err(e) => Err(e)
      case Ok(words) => Sentence(words)
  }

  /** The outcomes generate can produce with the probabilistic generator
      whose table is table before the call. Training reads the seed field,
      so a null seed fails there once a token pair is read. */
  ghost predicate ProbabilisticOutcome(table: map<string, int>, tokens: seq<string>, seed: Option<string>, howMany: int, r: Result<string>)
  {
    if |tokens| == 0 then r == Err(NoSuchElement)
    else if seed.None? && |tokens| >= 2 then r == Err(NullPointer)
    else if howMany < 0 then r == Err(NegativeArraySize)
    else
      var trained := if seed.Some? then P.Counted(table, seed.value, tokens) else table;
      exists words :: P.IsTopK(trained, howMany, words) && r == Sentence(words)
  }

  /** The outcomes generate can produce with the random generator whose
      dictionary is dict before the call. */
  ghost predicate RandomOutcome(dict: map<string, map<int, string>>, tokens: seq<string>, seed: Option<string>, howMany: int, r: Result<string>)
  {
    if |tokens| == 0 then r == Err(NoSuchElement)
    else if howMany < 0 then r == Err(NegativeArraySize)
    else if seed.None? then r == Err(NullPointer)
    else if howMany == 0 then r == Err(ArrayIndexOutOfBounds)
    else exists words :: R.IsRandomWalk(R.Listed(dict, tokens), seed.value, howMany, words) && r == Ok(Joined(words))
  }

  /** Lower-casing touches letters only, so it adds no space. */
  lemma LowerNoSpace(s: string)
    requires NoSpace(s)
    ensures NoSpace(Lower(s))
  {
    forall i | 0 <= i < |s|
      ensures Lower(s)[i] != ' '
    {
      assert s[i] in s;
    }
  }

  /** A seed that nothing in the corpus follows: the deterministic
      generator writes the lower-cased seed howMany times. */
  lemma DeterministicUnknownSeed(tokens: seq<string>, seed: string, howMany: nat)
    requires |tokens| >= 1 && howMany >= 1
    requires !IsPredecessor(tokens, Lower(seed))
    ensures DeterministicOutcome(map[], tokens, Some(seed), howMany) == Ok(Joined(seq(howMany, _ => Lower(seed))))
  {
    var dict := D.Trained(map[], tokens).best;
    D.TrainedKeys(map[], tokens, Lower(seed));
    D.WalkFromDeadEnd(dict, Lower(seed), howMany);
    assert D.Walk(dict, Lower(seed), howMany) == seq(howMany, _ => Lower(seed));
  }

  /** With space-free tokens and seed, the deterministic rendering splits
      back into exactly the howMany words of the walk. */
  lemma DeterministicSentenceSplits(tokens: seq<string>, seed: string, howMany: nat)
    requires |tokens| >= 1 && howMany >= 1
    requires forall i :: 0 <= i < |tokens| ==> NoSpace(tokens[i])
    requires NoSpace(seed)
    ensures var words := D.Walk(D.Trained(map[], tokens).best, Lower(seed), howMany);
      DeterministicOutcome(map[], tokens, Some(seed), howMany) == Ok(Joined(words))
      && Split(Joined(words)) == words
  {
    var words := D.Walk(D.Trained(map[], tokens).best, Lower(seed), howMany);
    forall i | 0 <= i < |words|
      ensures NoSpace(words[i])
    {
      LowerNoSpace(seed);
      if i > 0 {
        D.WalkFollowsTraining(tokens, Lower(seed), howMany, i);
        if IsPredecessor(tokens, words[i - 1]) {
          PairCountSuccessor(tokens, words[i - 1], words[i]);
        }
      }
    }
    SplitJoined(words);
  }

  /** The top-k list is unique, so generate with the probabilistic
      generator has exactly one outcome. */
  lemma ProbabilisticOutcomeUnique(table: map<string, int>, tokens: seq<string>, seed: Option<string>, howMany: int, r1: Result<string>, r2: Result<string>)
    requires ProbabilisticOutcome(table, tokens, seed, howMany, r1)
    requires ProbabilisticOutcome(table, tokens, seed, howMany, r2)
    ensures r1 == r2
  {
    if |tokens| >= 1 && !(seed.None? && |tokens| >= 2) && howMany >= 0 {
      var trained := if seed.Some? then P.Counted(table, seed.value, tokens) else table;
      var words1 :| P.IsTopK(trained, howMany, words1) && r1 == Sentence(words1);
      var words2 :| P.IsTopK(trained, howMany, words2) && r2 == Sentence(words2);
      P.TopKUnique(trained, howMany, words1, words2);
    }
  }

  /** The probabilistic generator returns no word when howMany is 0 or the
      trained table is empty, and rendering an empty array fails; from an
      empty table the latter happens exactly when nothing in the corpus
      follows the seed. */
  lemma ProbabilisticEmptyFails(table: map<string, int>, tokens: seq<string>, seed: string, howMany: int, r: Result<string>)
    requires |tokens| >= 1 && howMany >= 0
    requires ProbabilisticOutcome(table, tokens, Some(seed), howMany, r)
    ensures r == Err(StringIndexOutOfBounds) <==> howMany == 0 || P.Counted(table, seed, tokens) == map[]
    ensures table == map[] ==> (P.Counted(table, seed, tokens) == map[] <==> !IsPredecessor(tokens, seed))
  {
    var trained := P.Counted(table, seed, tokens);
    var words :| P.IsTopK(trained, howMany, words) && r == Sentence(words);
    if trained != map[] {
      assert |trained| > 0;
    }
    if table == map[] {
      P.CountedEmpty(seed, tokens);
    }
  }

  /** With space-free tokens and seed, a random rendering always splits
      into exactly howMany words: every word is a token, the lower-cased
      seed or the seed. */
  lemma RandomSentenceLength(tokens: seq<string>, seed: string, howMany: int, r: Result<string>)
    requires forall i :: 0 <= i < |tokens| ==> NoSpace(tokens[i])
    requires NoSpace(seed)
    requires RandomOutcome(map[], tokens, Some(seed), howMany, r) && r.Ok?
    ensures |Split(r.value)| == howMany
  {
    var words :| R.IsRandomWalk(R.Listed(map[], tokens), seed, howMany, words) && r == Ok(Joined(words));
    forall i | 0 <= i < |words|
      ensures NoSpace(words[i])
    {
      LowerNoSpace(seed);
      if i > 0 {
        R.RandomWalkFollowsCorpus(tokens, seed, howMany, words, i);
        if IsPredecessor(tokens, words[i - 1]) {
          PairCountSuccessor(tokens, words[i - 1], words[i]);
        }
      }
    }
    SplitJoined(words);
  }

  /** Stores the seed and the count in the generator's fields, trains it,
      gets the words for the seed as passed and renders them. */
  method Generate(gen: Generator, howMany: int, tokens: seq<string>, seed: Option<string>) returns (r: Result<string>)
    requires gen.Random? ==> gen.g.Valid()
    modifies gen.Target()
    ensures gen.Deterministic? ==> gen.d.seed == seed && gen.d.howMany == howMany
    ensures gen.Deterministic? ==> r == DeterministicOutcome(old(gen.d.deterministicDictionary), tokens, seed, howMany)
    ensures gen.Probabilistic? ==> gen.p.seed == seed && gen.p.howMany == howMany
    ensures gen.Probabilistic? ==> ProbabilisticOutcome(old(gen.p.probabilisticDictionary), tokens, seed, howMany, r)
    ensures gen.Random? ==> gen.g.seed == seed && gen.g.howMany == howMany
    ensures gen.Random? ==> RandomOutcome(old(gen.g.randomDictionary), tokens, seed, howMany, r)
    ensures gen.Deterministic? ==>
      (gen.d.deterministicDictionary ==
        if |tokens| == 0 then old(gen.d.deterministicDictionary)
        else if r.Ok? then map[]
        else D.Trained(old(gen.d.deterministicDictionary), tokens).best)
    ensures gen.Probabilistic? ==>
      (gen.p.probabilisticDictionary ==
        if seed.Some? then P.Counted(old(gen.p.probabilisticDictionary), seed.value, tokens)
        else old(gen.p.probabilisticDictionary))
    ensures gen.Random? ==> gen.g.Valid() && gen.g.randomDictionary == R.Listed(old(gen.g.randomDictionary), tokens)
  {
    match gen
    case Deterministic(d) =>
      d.seed := seed;
      d.howMany := howMany;
      var trained := d.Train(tokens);
      if trained.Err? {
        return Err(trained.error);
      }
      var words := d.GetWords(seed, howMany);
      if words.Err? {
        return Err(words.error);
      }
      r := Render(words.value);
    case Probabilistic(p) =>
      p.seed := seed;
      p.howMany := howMany;
      var trained := p.Train(tokens);
      if trained.Err? {
        return Err(trained.error);
      }
      var words := p.GetWords(seed, howMany);
      if words.Err? {
        return Err(words.error);
      }
      r := Render(words.value);
    case Random(g) =>
      g.seed := seed;
      g.howMany := howMany;
      var trained := g.Train(tokens);
      if trained.Err? {
        return Err(trained.error);
      }
      var words := g.GetWords(seed, howMany);
      if words.Err? {
        return Err(words.error);
      }
      r := Render(words.value);
  }
}
